=== FILE: README.md ===
# Wikimapia crawler — a Dafny model

GeoScraper downloads the places of a region from Wikimapia. `WikimapiaCrawler.run(name)` works in three phases:

- **Entry point.** It finds the region named `name` among the `.linkslist a` anchors of the country page. The match is caseless.
- **Discovery.** It crawls every page at or below the region's URL. A set-backed queue of pending URLs and a set of visited URLs drive the crawl. Each page adds the "Name map" pairs in its `li` elements to a store of locations.
- **Enrichment.** It downloads the detail page of every stored location, merges its description into the location's metadata, and returns a GeoJSON feature collection.

This project models that core with one worker, in the crawler's own terms.

- **Records.** `Url` (a parsed URL), `Anchor`, `Page`, `GeoPoint` and `GeoLocation` live in `Pages` and `Utils`.
- **Frontier.** `SetQueues` models `SetAsyncioQueue`. `Crawler` models `add_url_to_visit`, `add_geo_location`, `crawl` and one iteration of `url_handler` (as `Step`), plus a loop bounded by a number of steps (`Crawl`).
- **Extractors.** `Extract` models `get_linked_urls` and `get_geo_locations`. `MapUrl` models `get_params_from_map_url` and `get_point_from_map_url`:
  - the `re.sub` rewrite;
  - `urlparse(...).query`;
  - `parse_qs` with its default flags;
  - the flattening of one-element lists.
- **Output.** `Enrich` models `can_be_location_page_url`, `get_location_page_data` and `location_handler`. `GeoJson` models `build_geojson`. `Scraper` models `find_location_in_page` and `run`.
- **Utilities.** `Utils` models `is_base_url` and `caseless_equal` from `src/utils.py`.

Everything the core calls but does not define is a field of the `Env` datatype, so every property holds whatever those collaborators do:

- downloading and parsing a page (`fetch`, with `None` for any failure);
- `urljoin` with a non-empty `href`;
- `float()`;
- the dataclass `==` used by `geo_location not in self.geo_locations`;
- `normalize_caseless`.

The model reproduces three behaviours of the source exactly rather than correcting them:

- **Location base.** In `crawl`, the loop variable of the link loop shadows the `url` parameter. Location hrefs are therefore joined against the last in-scope link of the page, or against the page itself when it has none. `Crawler.CrawlPage` and `Crawler.Step` state this for every page through `Crawler.LocationBase`, and `Crawler.LocationJoinedAgainstLastLink` works it through on one page.
- **Pending and visited overlap.** Between `get` and `visited_urls.add`, the URL being crawled is neither pending nor visited. A page that links to itself is therefore re-enqueued (`Crawler.SelfLinkIsPendingAndVisited`).
- **Text-prefix scope test.** `is_base_url` compares raw path text, so `/country/AB` lies "under" `/country/A` (`Utils.IsBaseUrlComparesText`).

The link filter bounds the crawl to the subtree under the found URL. `Crawler.Under` states that every visited and pending URL is under a root. `Crawler.IterateUnder` keeps it across the loop, and `Scraper.Run` promises it for the found URL.

Deduplication in the store uses the abstract equality. Under the original's `==`, points are compared by identity, so two separately extracted locations are never equal.

## Model

| member | source | states |
|---|---|---|
| SetQueues.SetQueue.Put | src/wikimapia_scraper.py:30-32 | the URL becomes a member and is appended at the tail; every other membership is unchanged |
| SetQueues.SetQueue.Get | src/wikimapia_scraper.py:34-37 | the head is returned and removed from the membership set; raises (None) exactly when the head is not a member |
| SetQueues.EmptyQueue | src/wikimapia_scraper.py:26-28 | a new queue is valid, empty and contains nothing |
| SetQueues.PutKeepsValid | src/wikimapia_scraper.py:30-40 | putting a URL that is not pending keeps the queue duplicate-free with its set equal to its items |
| SetQueues.GetKeepsValid | src/wikimapia_scraper.py:34-40 | on a valid queue `get` never raises, the rest stays valid and the head is no longer pending |
| SetQueues.UnguardedDoublePutBreaksGet | src/wikimapia_scraper.py:30-37 | without the membership guard, putting a URL twice makes the second `get` raise |
| Utils.IsBaseUrl | src/utils.py:16-19 | true exactly when the hosts are equal and the base path is a prefix of the path |
| Utils.IsBaseUrlReflexive | src/utils.py:16-19 | every URL is under itself |
| Utils.IsBaseUrlOtherHost | src/utils.py:16-19 | a URL on another host is never under the base |
| Utils.IsBaseUrlOnlyDeeper | src/utils.py:16-19 | accepted paths are at least as long as the base path and begin with it; shorter or diverging paths are rejected |
| Utils.IsBaseUrlTransitive | src/utils.py:16-19 | being under a base is transitive |
| Utils.IsBaseUrlComparesText | src/utils.py:16-19 | the prefix test is on text, not on path segments: `/country/AB` is under `/country/A`, `/country/B` and `/country/` are not |
| Utils.CaselessEqual | src/utils.py:9-13 | two texts match exactly when their normalised forms are equal, so identical texts always match |
| Utils.CaselessEqualIsEquivalence | src/utils.py:9-13 | caseless equality is reflexive, symmetric and transitive for any normaliser |
| Utils.CaselessEqualIgnoresAsciiCase | src/utils.py:5-13 | with a normaliser that folds ASCII case, "Arad" equals "ARAD" and "arad" |
| Pages.ResolveHref | src/wikimapia_scraper.py:87-88 | `urljoin` with a missing or empty href returns the base; otherwise it is the join |
| Pages.Merge | src/wikimapia_scraper.py:189 | in-place dict union: the key set is the union, keys of `info` win, other keys of `data` are kept |
| MapUrl.RewriteMapUrl | src/wikimapia_scraper.py:102-103 | the text before the first "lat" is replaced by `?`; without "lat" the text is unchanged |
| MapUrl.BeforeFragment | src/wikimapia_scraper.py:104 | the fragment is cut at the first `#`: the result is the longest prefix without `#` |
| MapUrl.QueryOf | src/wikimapia_scraper.py:104-105 | with the fragment cut off, the query is exactly the text after the first `?`, and empty when there is no `?`; it never contains `#` |
| MapUrl.QueryOfCutsFragment | src/wikimapia_scraper.py:104-105 | the query of `?q#fragment` is `q`, whatever the fragment holds |
| MapUrl.QueryOfQuestionMark | src/wikimapia_scraper.py:102-105 | after the rewrite, the query is everything after the leading `?` when there is no fragment |
| MapUrl.ParseField | src/wikimapia_scraper.py:105 | a field is read as `key=value` split at the first `=`; it is dropped exactly when it is empty or has no `=` before its last character |
| MapUrl.ParseFieldOfPair | src/wikimapia_scraper.py:105 | a `key=value` field with an `=`-free key and non-empty value reads back as that pair |
| MapUrl.ParseFields | src/wikimapia_scraper.py:105 | no more pairs than fields; every pair has a non-empty value and an `=`-free key |
| MapUrl.ParseQsl | src/wikimapia_scraper.py:105 | pairs have non-empty values, `=`-free keys, and neither part contains `&` |
| MapUrl.ParseFieldsAppend | src/wikimapia_scraper.py:105 | reading fields distributes over concatenation, so no field affects another |
| MapUrl.ParseFieldsSingle | src/wikimapia_scraper.py:105 | one field gives its pair, or nothing when it is dropped |
| MapUrl.DroppedFieldSkipped | src/wikimapia_scraper.py:105 | a blank or `=`-less field is skipped and the fields after it are still read |
| MapUrl.BlankFieldInQuery | src/wikimapia_scraper.py:105 | in a query, an empty field between two `&` is skipped: `a&&b` reads as its two fields |
| MapUrl.ParseQslOfFields | src/wikimapia_scraper.py:105 | `parse_qsl` of `&`-free fields joined by `&` reads exactly those fields, in order |
| MapUrl.FieldsKeepSeparatorOut | src/wikimapia_scraper.py:105 | `&`-free fields give `&`-free keys and values |
| MapUrl.ParseQslOfQueryString | src/wikimapia_scraper.py:105 | `parse_qsl` of `k1=v1&...&kn=vn` gives back exactly the pairs it was written from |
| MapUrl.ParseFieldsOfFields | src/wikimapia_scraper.py:105 | reading the fields written from well-formed pairs gives back the pairs |
| MapUrl.ParseQs | src/wikimapia_scraper.py:105 | every key of the dictionary has at least one value |
| MapUrl.ParseQsCollectsValues | src/wikimapia_scraper.py:105 | a key is present exactly when some pair carries it, and its list is all of that key's values in query order |
| MapUrl.ValuesForAbsentKey | src/wikimapia_scraper.py:105 | a key carried by no pair has no values |
| MapUrl.ValuesForUniqueKey | src/wikimapia_scraper.py:105 | a key carried by exactly one pair has exactly that pair's value |
| MapUrl.Flatten | src/wikimapia_scraper.py:107-111 | same keys; each entry stands for the same values; it is a scalar exactly when the list had one element |
| MapUrl.FlattenedParamValues | src/wikimapia_scraper.py:105-111 | after `parse_qs` and flattening, a key is present iff some pair carries it; one value gives a scalar, repeated values stay a list |
| MapUrl.ScalarParam | src/wikimapia_scraper.py:116-118 | a parameter is usable exactly when it is present, a single value and non-empty, and then its text is that value |
| MapUrl.ScalarParamOfPairs | src/wikimapia_scraper.py:105-118 | after `parse_qs` and flattening, a key gives the text `v` exactly when `v` is its one and only value and is non-empty |
| MapUrl.BeforeFragmentAfterMark | src/wikimapia_scraper.py:102-104 | a leading `?` stays in front of the fragment cut, which happens at the same `#` |
| MapUrl.BeforeFragmentWhole | src/wikimapia_scraper.py:104 | text without `#` has no fragment to cut |
| MapUrl.QueryOfMarked | src/wikimapia_scraper.py:102-105 | the query of `?t` is `t` up to its first `#` |
| MapUrl.GetParamsFromMapUrl | src/wikimapia_scraper.py:96-111 | when the link holds "lat", the parameters are those of the text from the first "lat" up to the next `#` (all of it when no `#` follows); without "lat", the parameters are those of the link's own query, and a link with no "lat", `?` or `#` has none |
| MapUrl.GetPointFromMapUrl | src/wikimapia_scraper.py:113-122 | a point exists exactly when the href is present, `lat` and `lon` are usable and both parse; its coordinates are the parsed values |
| MapUrlExamples.ParamsAfterPrefix | src/wikimapia_scraper.py:96-111 | everything before the first "lat" is discarded: the parameters are those of the query starting there |
| MapUrlExamples.ExampleParams | src/wikimapia_scraper.py:96-111 | the documented link `/#lang=en&lat=-14.260057&lon=-170.649948&z=13&m=w` yields exactly `lat`, `lon`, `z`, `m` as single values; `lang` is gone |
| MapUrlExamples.ExamplePoint | src/wikimapia_scraper.py:113-122 | the documented link gives the point with its parsed `lon` and `lat` |
| MapUrlExamples.ExampleMissingLon | src/wikimapia_scraper.py:113-122 | a link without `lon` gives no point, whatever the number parser does |
| MapUrlExamples.BlankFieldExample | src/wikimapia_scraper.py:105 | `lat=1&&lon=2` reads as the two pairs `lat=1` and `lon=2` |
| MapUrlExamples.OnePair | src/wikimapia_scraper.py:105 | a `key=value` field on its own reads as that one pair |
| Extract.LinkOf | src/wikimapia_scraper.py:73-79 | an anchor yields its joined URL exactly when its href is non-empty and the join lies under the page |
| Extract.GetLinkedUrls | src/wikimapia_scraper.py:71-79 | every link lies under the page URL; a URL is yielded exactly when some anchor leads to it |
| Extract.LinkedUrlsKeepOrder | src/wikimapia_scraper.py:71-79 | links come out in anchor order (extraction distributes over concatenation) |
| Extract.LocationOf | src/wikimapia_scraper.py:84-94 | an `li` yields a location exactly when it has two anchors, the second reads "map" and its href gives a point; the location has the joined URL, that one point and the name |
| Extract.GetGeoLocations | src/wikimapia_scraper.py:81-94 | every extracted location has one point and metadata holding only its name |
| Extract.GeoLocationHasItem | src/wikimapia_scraper.py:81-94 | every extracted location is yielded by some `li` of the page |
| Extract.GeoLocationOfItem | src/wikimapia_scraper.py:81-94 | the location any `li` yields is among the extracted ones |
| Extract.GeoLocationsFromItems | src/wikimapia_scraper.py:81-94 | a location is extracted exactly when some `li` yields it |
| Extract.GeoLocationsKeepOrder | src/wikimapia_scraper.py:81-94 | locations come out in page order |
| Crawler.InitialState | src/wikimapia_scraper.py:57-61 | the crawler starts with a valid empty queue, nothing visited and no locations |
| Crawler.AddUrlToVisit | src/wikimapia_scraper.py:132-134 | a URL is enqueued only when neither visited nor pending, otherwise nothing changes; afterwards it is visited or pending and the queue stays valid |
| Crawler.AddUrlsToVisit | src/wikimapia_scraper.py:143-144 | pending becomes old pending plus the unvisited links, appended behind the old queue, which stays valid |
| Crawler.InStore | src/wikimapia_scraper.py:137 | membership under the location equality: an empty store holds nothing, and a stored entry is found whenever the equality is reflexive on it |
| Crawler.AddGeoLocation | src/wikimapia_scraper.py:136-138 | the location is appended exactly when it has a point and equals no stored one; otherwise the store is unchanged |
| Crawler.AddGeoLocationKeepsStoreValid | src/wikimapia_scraper.py:136-138 | the store keeps "every entry has a point and no two are equal" |
| Crawler.StoreOne | src/wikimapia_scraper.py:136-138 | an empty store takes a single location that has a point |
| Crawler.AddGeoLocations | src/wikimapia_scraper.py:146-147 | the store only grows, and only by extracted locations with a point |
| Crawler.AddGeoLocationsKeepsStoreValid | src/wikimapia_scraper.py:146-147 | adding a batch keeps the store invariant |
| Crawler.AddGeoLocationsCovers | src/wikimapia_scraper.py:136-147 | every extracted location with a point ends up stored or equal to a stored one |
| Crawler.AddGeoLocationsCoversAll | src/wikimapia_scraper.py:136-147 | the same for every extracted location of a batch at once |
| Crawler.PageLocations | src/wikimapia_scraper.py:143-147 | a page yields at most one location per `li`, each with exactly one point and only a name as metadata |
| Crawler.PageLocationsFromItems | src/wikimapia_scraper.py:143-147 | a page yields a location exactly when some `li`, joined against the last in-scope link (or the page), yields it |
| Crawler.LocationBase | src/wikimapia_scraper.py:143-146 | the base for location hrefs is the page URL when the page has no in-scope links, and otherwise the last of them |
| Crawler.OnlyFirstAnchorLinked | src/wikimapia_scraper.py:71-79 | of three anchors of which only the first leads under the page, that first target is the only link |
| Crawler.SubPageOnlyLink | src/wikimapia_scraper.py:71-79 | of a sub-page anchor and an `li`'s two anchors leading outside the page, only the sub-page is linked |
| Crawler.LocationsAgainstOnlyLink | src/wikimapia_scraper.py:143-147 | a page whose only in-scope link is a sub-page yields its one `li`'s location joined against that sub-page |
| Crawler.CrawlPageStoresOne | src/wikimapia_scraper.py:140-147 | crawling a page that yields exactly one location with a point, from an empty state, stores just that location |
| Crawler.OneLocationStored | src/wikimapia_scraper.py:81-94 | one qualifying `li` puts exactly its location into an empty store |
| Crawler.LocationJoinedAgainstLastLink | src/wikimapia_scraper.py:143-146 | on a page with one sub-page link and one location whose links lie outside the page, if its map link gives a point, the one stored location is joined against the sub-page, not the crawled page |
| Crawler.CrawlPage | src/wikimapia_scraper.py:140-147 | visited is unchanged; pending gains exactly the page's unvisited links; every location extracted against the last link (or the page) that has a point is stored or equals a stored one, and the store gains nothing else; invariants and names are kept |
| Crawler.Step | src/wikimapia_scraper.py:174-184 | the head becomes visited on success and on failure; a failed download adds no links and no locations; a fetched page makes pending the other old URLs plus the page's unvisited links, and stores exactly its extracted locations with points (up to duplicates); the queue and store invariants are kept |
| Crawler.LinksFrom | src/wikimapia_scraper.py:71-79 | every link of a page lies under that page |
| Crawler.StepKeepsClosed | src/wikimapia_scraper.py:174-184 | after a step, every link of every visited page is still visited or pending |
| Crawler.InStoreGrows | src/wikimapia_scraper.py:137-138 | a location stored, or equal to a stored one, stays so when the store grows |
| Crawler.StepKeepsCovered | src/wikimapia_scraper.py:136-147 | after a step, every location with a point that a visited, fetched page yields is stored or equal to a stored one |
| Crawler.StepKeepsStoredSince | src/wikimapia_scraper.py:136-147 | after a step, every entry stored since a given point was yielded by some visited page |
| Crawler.StepKeepsInv | src/wikimapia_scraper.py:174-184 | a step on a non-empty queue keeps the queue, store, naming, link-closure and coverage invariants |
| Crawler.Iterate | src/wikimapia_scraper.py:174-184 | `n` worker iterations, stopping early once the queue drains: the queue stays valid, visited and the store only grow, and zero iterations change nothing |
| Crawler.IterateDrainedStays | src/wikimapia_scraper.py:199-203 | once the queue has drained, further iterations change nothing |
| Crawler.Crawl | src/wikimapia_scraper.py:174-206 | the final state is `Iterate` of the reported number of steps, which is at most the bound and reaches it unless the queue drained; all invariants are kept; every located entry of every visited fetched page is stored or equals a stored one, and every newly stored entry comes from a visited page; visited and the store only grow; seeded URLs end up visited or pending; it reports drained exactly when the queue is empty |
| Crawler.DrainedIsClosed | src/wikimapia_scraper.py:199-206 | once the queue drains, every link of a visited page is visited |
| Crawler.SeedIsUnder | src/wikimapia_scraper.py:196 | the state seeded with the found URL has every visited and pending URL under that URL |
| Crawler.StepKeepsUnder | src/wikimapia_scraper.py:75-79 | a step keeps every visited and pending URL under the root, because each enqueued link passes `is_base_url` against its page, which is itself under the root |
| Crawler.IterateUnder | src/wikimapia_scraper.py:174-184 | any number of worker iterations from a state under a root stays under it |
| Crawler.ReachableIsVisited | src/wikimapia_scraper.py:196-206 | once drained, every URL reachable by links from a visited URL has been visited |
| Crawler.SelfLinkIsPendingAndVisited | src/wikimapia_scraper.py:174-184 | a page linking to itself ends a step both visited and pending |
| Enrich.CanBeLocationPageUrl | src/wikimapia_scraper.py:157-163 | true exactly when the path does not start with `/country/` |
| Enrich.CanBeLocationPageUrlExamples | src/wikimapia_scraper.py:157-163 | `/15002/Arad-Israel` and `/country` qualify; `/country/` and `/country/Israel/` do not |
| Enrich.LocationPageData | src/wikimapia_scraper.py:124-130 | a `description` entry exactly when the page has a non-empty description, holding that text, and no other key |
| Enrich.LocationHandler | src/wikimapia_scraper.py:186-191 | URL and points never change; a detail page that downloads is merged in with its keys winning; otherwise the location is unchanged |
| Enrich.EnrichAll | src/wikimapia_scraper.py:208-211 | each entry is `location_handler` applied to the entry at the same index; each keeps its URL, points and existing keys |
| Enrich.LocationHandlerIdempotent | src/wikimapia_scraper.py:186-191 | enriching a location twice gives the same result as enriching it once |
| GeoJson.FeatureOf | src/wikimapia_scraper.py:168-171 | a location has a feature exactly when it has a point; the geometry is `[lon, lat]` of the first point and the properties are its metadata |
| GeoJson.BuildFeatures | src/wikimapia_scraper.py:165-172 | at most one feature per location, each a two-coordinate point |
| GeoJson.BuildGeoJson | src/wikimapia_scraper.py:165-172 | the collection has no more features than locations |
| GeoJson.BuildFeaturesAppend | src/wikimapia_scraper.py:165-172 | features come out in store order (building distributes over concatenation) |
| GeoJson.BuildFeaturesOfLocated | src/wikimapia_scraper.py:165-172 | when every location has a point, feature `i` is the feature of location `i` |
| GeoJson.BuildFeaturesMembership | src/wikimapia_scraper.py:165-172 | a feature is built exactly when some location yields it |
| GeoJson.EnrichKeepsGeometry | src/wikimapia_scraper.py:208-213 | enrichment leaves the feature count and every geometry unchanged and only adds property keys |
| Scraper.Matches | src/wikimapia_scraper.py:153 | an anchor matches only with a non-empty href, and then exactly when its text is caseless-equal to the searched name |
| Scraper.FindInAnchorsFrom | src/wikimapia_scraper.py:151-155 | the first matching anchor with a non-empty href wins and is joined against the start URL; an anchor without an href before any match raises; NotFound exactly when every anchor has an href and none matches |
| Scraper.FindLocationInPage | src/wikimapia_scraper.py:149-155 | an undownloadable page fails; the first matching `.linkslist` anchor, when every anchor before it has an href, is the result, joined against the start URL; an anchor without an href before any match raises `MissingHref`; a success is always some matching anchor; NotFound exactly when no anchor matches and none lacks an href |
| Scraper.Run | src/wikimapia_scraper.py:193-213 | a failed search is passed on; after a found search, the crawl state is `Iterate` from the found URL for some number of steps within the bound that drained the queue or used the bound, and the run succeeds exactly when the queue drained; a success is `Iterate` for the whole bound, visited the found URL, left visited closed under links, stored (up to equality) every located entry of every visited fetched page and stored nothing that no visited page yields; after a found search, drained or not, every visited and pending URL lies under the found URL; it returns the collection built from the enriched store, feature `k` having the first point of stored location `k` as `[lon, lat]` and that location's enriched metadata as properties |

## Left out

- Concurrency is not modelled: several workers, `asyncio.create_task`, `task_done` and `join`, cancellation and `AioPool`. The model runs one worker, and `Crawl` steps until the queue is empty.
- Crawl: the step bound `fuel` exists only so that the loop terminates. `Run` reports `OutOfFuel` where the original would keep crawling, because the set of reachable pages is not bounded by anything in the model.
- HTTP (`requests.get`) and HTML parsing (BeautifulSoup) are not modelled. A page is the abstract `Page` record returned by `Env.fetch`, and any download or parse failure is `None`.
- Exceptions raised part-way through `crawl` (for example from `urljoin` on a malformed URL) are not modelled. The effects made before such an exception are kept in the original; here a page either fails entirely at download or is crawled completely.
- `float()`, floating-point coordinates, and the coordinate rounding the `geojson` package applies are not modelled. Coordinates are abstract reals produced by `Env.parseFloat`.
- The internals of `urljoin` and `urlparse` (schemes, netloc parsing, normalisation of `..`) are not modelled. URLs arrive already split into host and path, and `Env.join` stands for `urljoin`.
- `urlparse` removes tab, CR and LF characters, and the regex `.` does not match a newline. Both are left out; map links are taken to be single-line.
- MapUrl.ParseQsl: percent-decoding and `+`-to-space are not modelled. The map links the crawler reads contain neither.
- `normalize_caseless` (Unicode case folding and NFKD) is abstract. The model only assumes it folds ASCII case where an example needs that.
- SetQueues.SetQueue.Get: requires a non-empty queue. On an empty queue `get` waits for another worker's `put`, which a single worker never does.
- Crawler.Step: requires a valid queue. On an invalid one, `get` would raise outside the `try` and end the worker. Every state reachable from `InitialState` through `AddUrlToVisit` and `Step` is valid (the invariant of `Crawl`), so the requirement costs nothing on reachable states.
- Logging is not modelled.
- `download_html` is not modelled separately; it is `Env.fetch`.
- `src/geo_scraper.py` (command-line entry and file output) is not part of this model.
- Crawler.AddGeoLocation dedups with the abstract `Env.sameLocation`. In the original, `GeoPoint` has no `__eq__`, so this equality compares points by identity and in practice never matches two separately extracted locations.

=== FILE: crawler.dfy ===
/**
 * The discovery phase of `WikimapiaCrawler`, run by a single worker: the
 * frontier guard, the location store, one `url_handler` iteration as a step,
 * and the loop that repeats it until the queue drains.
 */
module Crawler {
  import opened Optional
  import opened Utils
  import opened SetQueues
  import opened Pages
  import opened MapUrl
  import opened Extract

  /** `urls_to_visit`, `visited_urls` and `geo_locations`. */
  datatype CrawlState = CrawlState(pending: SetQueue, visited: set<Url>, locations: seq<GeoLocation>)

  /** The state `__init__` sets up: nothing pending, nothing visited, no locations. */
  function InitialState(): (c: CrawlState)
    ensures c.pending.Valid() && c.pending.items == [] && c.visited == {} && c.locations == []
  {
    CrawlState(EmptyQueue(), {}, [])
  }

  /**
   * `add_url_to_visit`: enqueues `u` only when it is neither visited nor
   * pending; otherwise nothing changes. Afterwards `u` is visited or pending.
   */
  function AddUrlToVisit(c: CrawlState, u: Url): (r: CrawlState)
    ensures r.visited == c.visited && r.locations == c.locations
    ensures u !in c.visited && !c.pending.Contains(u) ==> r.pending.items == c.pending.items + [u]
    ensures u in c.visited || c.pending.Contains(u) ==> r == c
    ensures forall v :: r.pending.Contains(v) <==> c.pending.Contains(v) || (v == u && u !in c.visited)
    ensures u in r.visited || r.pending.Contains(u)
    ensures c.pending.Valid() ==> r.pending.Valid()
  {
    if u !in c.visited && !c.pending.Contains(u) then
      PutKeepsValid(c.pending, u);
      c.(pending := c.pending.Put(u))
    else c
  }

  /**
   * The `for url in ...: add_url_to_visit(url)` loop of `crawl`: the pending
   * URLs become the old ones plus the unvisited links, appended behind the
   * old queue.
   */
  function AddUrlsToVisit(c: CrawlState, links: seq<Url>): (r: CrawlState)
    ensures r.visited == c.visited && r.locations == c.locations
    ensures c.pending.items <= r.pending.items
    ensures forall v :: r.pending.Contains(v) <==> c.pending.Contains(v) || (v in links && v !in c.visited)
    ensures c.pending.Valid() ==> r.pending.Valid()
    decreases |links|
  {
    if |links| == 0 then c
    else AddUrlsToVisit(AddUrlToVisit(c, links[0]), links[1..])
  }

  /** Some stored location equals `loc` under the dataclass `==` (`loc in store`). */
  predicate InStore(store: seq<GeoLocation>, loc: GeoLocation, same: (GeoLocation, GeoLocation) -> bool): (r: bool)
    ensures |store| == 0 ==> !r
    ensures loc in store && same(loc, loc) ==> r
    ensures r ==> exists i :: 0 <= i < |store| && same(store[i], loc)
  {
    exists i :: 0 <= i < |store| && same(store[i], loc)
  }

  /**
   * `add_geo_location`: appends `loc` exactly when it has a point and no
   * stored location equals it; otherwise the store is unchanged.
   */
  function AddGeoLocation(store: seq<GeoLocation>, loc: GeoLocation, same: (GeoLocation, GeoLocation) -> bool): (r: seq<GeoLocation>)
    ensures r == store + [loc] <==> |loc.points| > 0 && !InStore(store, loc, same)
    ensures r != store + [loc] ==> r == store
  {
    if |loc.points| > 0 && !InStore(store, loc, same) then store + [loc] else store
  }

  /** The store invariant: every location has a point and none equals a later one. */
  ghost predicate StoreValid(store: seq<GeoLocation>, same: (GeoLocation, GeoLocation) -> bool) {
    (forall i :: 0 <= i < |store| ==> |store[i].points| > 0) &&
    (forall i, j :: 0 <= i < j < |store| ==> !same(store[i], store[j]))
  }

  /** Every stored location carries a name. */
  ghost predicate AllNamed(store: seq<GeoLocation>) {
    forall i :: 0 <= i < |store| ==> "name" in store[i].data
  }

  /** `add_geo_location` keeps the store invariant. */
  lemma AddGeoLocationKeepsStoreValid(store: seq<GeoLocation>, loc: GeoLocation, same: (GeoLocation, GeoLocation) -> bool)
    requires StoreValid(store, same)
    ensures StoreValid(AddGeoLocation(store, loc, same), same)
  {
    var r := AddGeoLocation(store, loc, same);
    if r == store + [loc] {
      forall i, j | 0 <= i < j < |r| ensures !same(r[i], r[j]) {
        if j == |store| {
          assert !same(store[i], loc);
        }
      }
    }
  }

  /**
   * The `for location in ...: add_geo_location(location)` loop of `crawl`:
   * the store only grows, and only by extracted locations that have a point.
   */
  function AddGeoLocations(store: seq<GeoLocation>, locs: seq<GeoLocation>, same: (GeoLocation, GeoLocation) -> bool): (r: seq<GeoLocation>)
    ensures store <= r
    ensures forall k :: |store| <= k < |r| ==> r[k] in locs && |r[k].points| > 0
    decreases |locs|
  {
    if |locs| == 0 then store
    else AddGeoLocations(AddGeoLocation(store, locs[0], same), locs[1..], same)
  }

  /** An empty store takes a single location that has a point. */
  lemma StoreOne(loc: GeoLocation, same: (GeoLocation, GeoLocation) -> bool)
    requires |loc.points| > 0
    ensures AddGeoLocations([], [loc], same) == [loc]
  {
    assert AddGeoLocation([], loc, same) == [loc];
    assert [loc][1..] == [];
  }

  /** Adding a batch of locations keeps the store invariant. */
  lemma {:induction false} AddGeoLocationsKeepsStoreValid(store: seq<GeoLocation>, locs: seq<GeoLocation>, same: (GeoLocation, GeoLocation) -> bool)
    ensures StoreValid(store, same) ==> StoreValid(AddGeoLocations(store, locs, same), same)
    decreases |locs|
  {
    if |locs| > 0 && StoreValid(store, same) {
      AddGeoLocationKeepsStoreValid(store, locs[0], same);
      AddGeoLocationsKeepsStoreValid(AddGeoLocation(store, locs[0], same), locs[1..], same);
    }
  }

  /**
   * After a batch is added, every extracted location with a point is in the
   * store or equals a stored one: the only locations dropped are pointless
   * ones and duplicates.
   */
  lemma {:induction false} AddGeoLocationsCovers(store: seq<GeoLocation>, locs: seq<GeoLocation>, same: (GeoLocation, GeoLocation) -> bool, loc: GeoLocation)
    requires loc in locs && |loc.points| > 0
    ensures var r := AddGeoLocations(store, locs, same); loc in r || InStore(r, loc, same)
    decreases |locs|
  {
    var s1 := AddGeoLocation(store, locs[0], same);
    var r := AddGeoLocations(s1, locs[1..], same);
    assert r == AddGeoLocations(store, locs, same);
    if loc == locs[0] {
      if s1 == store + [loc] {
        assert r[|store|] == s1[|store|] == loc;
      } else {
        var i :| 0 <= i < |store| && same(store[i], loc);
        assert r[i] == store[i];
      }
    } else {
      assert loc in locs[1..];
      AddGeoLocationsCovers(s1, locs[1..], same, loc);
    }
  }

  /** Every extracted location with a point is stored or equals a stored one. */
  lemma AddGeoLocationsCoversAll(store: seq<GeoLocation>, locs: seq<GeoLocation>, same: (GeoLocation, GeoLocation) -> bool)
    ensures var r := AddGeoLocations(store, locs, same);
            forall loc :: loc in locs && |loc.points| > 0 ==> loc in r || InStore(r, loc, same)
  {
    forall loc | loc in locs && |loc.points| > 0
      ensures loc in AddGeoLocations(store, locs, same) || InStore(AddGeoLocations(store, locs, same), loc, same)
    {
      AddGeoLocationsCovers(store, locs, same, loc);
    }
  }

  /**
   * The base `crawl` joins location hrefs against: the loop variable of the
   * link loop shadows the parameter, so it is the last in-scope link, or the
   * page URL when there was none.
   */
  function LocationBase(url: Url, links: seq<Url>): (r: Url)
    ensures r == url || r in links
    ensures |links| == 0 ==> r == url
    ensures |links| > 0 ==> r == links[|links| - 1]
  {
    if |links| == 0 then url else links[|links| - 1]
  }

  /**
   * The locations `crawl(url)` extracts from `page`: the `li` pairs joined
   * against the base the shadowed loop variable leaves behind.
   */
  function PageLocations(env: Env, url: Url, page: Page): (r: seq<GeoLocation>)
    ensures |r| <= |page.listItems|
    ensures forall loc :: loc in r ==>
      |loc.points| == 1 && "name" in loc.data && loc.data == map["name" := loc.data["name"]]
  {
    GetGeoLocations(env, LocationBase(url, GetLinkedUrls(env, url, page.anchors)), page.listItems)
  }

  /**
   * A location is found on a page exactly when one of its `li` pairs yields
   * it against the base: the last in-scope link, or the page URL.
   */
  lemma PageLocationsFromItems(env: Env, url: Url, page: Page, loc: GeoLocation)
    ensures var base := LocationBase(url, GetLinkedUrls(env, url, page.anchors));
      loc in PageLocations(env, url, page) <==>
        exists i :: 0 <= i < |page.listItems| && LocationOf(env, base, page.listItems[i]) == Some(loc)
  {
    GeoLocationsFromItems(env, LocationBase(url, GetLinkedUrls(env, url, page.anchors)), page.listItems, loc);
  }

  /**
   * `crawl(url)` after a successful download: links first, then locations.
   * Every extracted location with a point ends up stored (or equal to a
   * stored one), and the store gains nothing else.
   */
  function CrawlPage(env: Env, c: CrawlState, url: Url, page: Page): (r: CrawlState)
    ensures r.visited == c.visited
    ensures c.locations <= r.locations
    ensures c.pending.items <= r.pending.items
    ensures forall v :: r.pending.Contains(v) <==>
      c.pending.Contains(v) || (v in GetLinkedUrls(env, url, page.anchors) && v !in c.visited)
    ensures c.pending.Valid() ==> r.pending.Valid()
    ensures StoreValid(c.locations, env.sameLocation) ==> StoreValid(r.locations, env.sameLocation)
    ensures AllNamed(c.locations) ==> AllNamed(r.locations)
    ensures forall loc :: loc in PageLocations(env, url, page) && |loc.points| > 0 ==>
      loc in r.locations || InStore(r.locations, loc, env.sameLocation)
    ensures forall k :: |c.locations| <= k < |r.locations| ==> r.locations[k] in PageLocations(env, url, page)
  {
    var links := GetLinkedUrls(env, url, page.anchors);
    var c1 := AddUrlsToVisit(c, links);
    var found := PageLocations(env, url, page);
    var store := AddGeoLocations(c1.locations, found, env.sameLocation);
    AddGeoLocationsKeepsStoreValid(c1.locations, found, env.sameLocation);
    AddGeoLocationsCoversAll(c1.locations, found, env.sameLocation);
    c1.(locations := store)
  }

  /**
   * One iteration of `url_handler`: take the head of the queue, crawl it if
   * its page can be fetched, and mark it visited on the success and the
   * failure path alike.
   */
  function Step(env: Env, c: CrawlState): (r: CrawlState)
    requires c.pending.Valid() && |c.pending.items| > 0
    ensures r.visited == c.visited + {c.pending.items[0]}
    ensures forall v :: c.pending.Contains(v) ==> v in r.visited || r.pending.Contains(v)
    ensures c.locations <= r.locations
    ensures r.pending.Valid()
    ensures env.fetch(c.pending.items[0]).None? ==>
      r.locations == c.locations && r.pending.items == c.pending.items[1..]
    ensures StoreValid(c.locations, env.sameLocation) ==> StoreValid(r.locations, env.sameLocation)
    ensures AllNamed(c.locations) ==> AllNamed(r.locations)
    ensures env.fetch(c.pending.items[0]).Some? ==>
      var head := c.pending.items[0];
      var page := env.fetch(head).value;
      (forall v :: r.pending.Contains(v) <==>
        (c.pending.Contains(v) && v != head) || (v in LinksFrom(env, head) && v !in c.visited)) &&
      (forall loc :: loc in PageLocations(env, head, page) && |loc.points| > 0 ==>
        loc in r.locations || InStore(r.locations, loc, env.sameLocation)) &&
      (forall k :: |c.locations| <= k < |r.locations| ==> r.locations[k] in PageLocations(env, head, page))
  {
    GetKeepsValid(c.pending);
    var (u, rest) := c.pending.Get().value;
    var c0 := c.(pending := rest);
    var c1 := match env.fetch(u) case Some(page) => CrawlPage(env, c0, u, page) case None => c0;
    c1.(visited := c1.visited + {u})
  }

  /** Of three anchors, only the first leads under the page: it is the page's only link. */
  lemma OnlyFirstAnchorLinked(env: Env, url: Url, child: Url, sub: Anchor, a1: Anchor, a2: Anchor)
    requires LinkOf(env, url, sub) == Some(child)
    requires LinkOf(env, url, a1).None? && LinkOf(env, url, a2).None?
    ensures GetLinkedUrls(env, url, [sub, a1, a2]) == [child]
  {
    var anchors := [sub, a1, a2];
    assert anchors[1..] == [a1, a2];
    assert anchors[1..][1..] == [a2];
    assert anchors[1..][1..][1..] == [];
    assert GetLinkedUrls(env, url, [a2]) == [];
    assert GetLinkedUrls(env, url, [a1, a2]) == [];
    assert GetLinkedUrls(env, url, anchors) == [child] + GetLinkedUrls(env, url, [a1, a2]);
  }

  /** A single qualifying `li` puts its one location into an empty store. */
  lemma OneLocationStored(env: Env, base: Url, item: seq<Anchor>)
    requires LocationOf(env, base, item).Some?
    ensures AddGeoLocations([], GetGeoLocations(env, base, [item]), env.sameLocation) == [LocationOf(env, base, item).value]
  {
    var loc := LocationOf(env, base, item).value;
    assert GetGeoLocations(env, base, [item][1..]) == [] by { assert [item][1..] == []; }
    assert GetGeoLocations(env, base, [item]) == [loc] + [];
    StoreOne(loc, env.sameLocation);
  }

  /** A page whose only in-scope link is `child` yields its one `li`'s location joined against `child`. */
  lemma LocationsAgainstOnlyLink(env: Env, url: Url, child: Url, page: Page, item: seq<Anchor>)
    requires GetLinkedUrls(env, url, page.anchors) == [child] && page.listItems == [item]
    requires LocationOf(env, child, item).Some?
    ensures PageLocations(env, url, page) == [LocationOf(env, child, item).value]
  {
    var loc := LocationOf(env, child, item).value;
    assert LocationBase(url, GetLinkedUrls(env, url, page.anchors)) == child;
    assert GetGeoLocations(env, child, [item][1..]) == [] by { assert [item][1..] == []; }
    assert GetGeoLocations(env, child, [item]) == [loc] + [];
  }

  /**
   * Of a sub-page anchor and an `li`'s two anchors that lie outside the page,
   * only the sub-page is linked.
   */
  lemma SubPageOnlyLink(env: Env, url: Url, child: Url, href: string, name: string, locHref: string, mapHref: string)
    requires href != "" && locHref != ""
    requires env.join(url, href) == child && IsBaseUrl(child, url)
    requires !IsBaseUrl(env.join(url, locHref), url) && !IsBaseUrl(env.join(url, mapHref), url)
    ensures GetLinkedUrls(env, url, [Anchor("sub", Some(href)), Anchor(name, Some(locHref)), Anchor("map", Some(mapHref))]) == [child]
  {
    OnlyFirstAnchorLinked(env, url, child, Anchor("sub", Some(href)), Anchor(name, Some(locHref)), Anchor("map", Some(mapHref)));
  }

  /** Crawling a page that yields exactly one location with a point stores just that location. */
  lemma CrawlPageStoresOne(env: Env, url: Url, page: Page, loc: GeoLocation)
    requires PageLocations(env, url, page) == [loc] && |loc.points| > 0
    ensures CrawlPage(env, InitialState(), url, page).locations == [loc]
  {
    var c1 := AddUrlsToVisit(InitialState(), GetLinkedUrls(env, url, page.anchors));
    assert c1.locations == [];
    StoreOne(loc, env.sameLocation);
  }

  /**
   * The shadowing made concrete. The page links to one sub-page and lists one
   * location whose own link and map link lie outside the page (as detail
   * pages and map links do); its anchors include the `li` anchors, as a real
   * page's do. The stored location's URL is its `href` joined against the
   * sub-page, not against the page that was crawled.
   */
  lemma LocationJoinedAgainstLastLink(env: Env, url: Url, child: Url, href: string, name: string, locHref: string, mapHref: string)
    requires href != "" && locHref != ""
    requires env.join(url, href) == child && IsBaseUrl(child, url)
    requires !IsBaseUrl(env.join(url, locHref), url) && !IsBaseUrl(env.join(url, mapHref), url)
    ensures var item := [Anchor(name, Some(locHref)), Anchor("map", Some(mapHref))];
            var page := Page([Anchor("sub", Some(href)), item[0], item[1]], [item], [], None);
            var r := CrawlPage(env, InitialState(), url, page);
            GetPointFromMapUrl(env, Some(mapHref)).Some? ==>
              |r.locations| == 1 && r.locations[0].url == env.join(child, locHref)
  {
    if GetPointFromMapUrl(env, Some(mapHref)).Some? {
      var item := [Anchor(name, Some(locHref)), Anchor("map", Some(mapHref))];
      var page := Page([Anchor("sub", Some(href)), item[0], item[1]], [item], [], None);
      SubPageOnlyLink(env, url, child, href, name, locHref, mapHref);
      var loc := LocationOf(env, child, item).value;
      LocationsAgainstOnlyLink(env, url, child, page, item);
      CrawlPageStoresOne(env, url, page, loc);
    }
  }

  /** The in-scope links of `u`'s page; none when it cannot be fetched. */
  function LinksFrom(env: Env, u: Url): (r: seq<Url>)
    ensures forall k :: 0 <= k < |r| ==> IsBaseUrl(r[k], u)
  {
    match env.fetch(u)
    case Some(page) => GetLinkedUrls(env, u, page.anchors)
    case None => []
  }

  /** Every link of every visited page is visited or pending. */
  ghost predicate Closed(env: Env, c: CrawlState) {
    forall v, l :: v in c.visited && l in LinksFrom(env, v) ==> l in c.visited || c.pending.Contains(l)
  }

  /** The locations `crawl(u)` extracts from `u`'s page; none when it cannot be fetched. */
  function FoundAt(env: Env, u: Url): seq<GeoLocation> {
    match env.fetch(u)
    case Some(page) => PageLocations(env, u, page)
    case None => []
  }

  /** Every location with a point extracted from a visited page is stored, or equals a stored one. */
  ghost predicate Covered(env: Env, c: CrawlState) {
    forall v, loc :: v in c.visited && loc in FoundAt(env, v) && |loc.points| > 0 ==>
      loc in c.locations || InStore(c.locations, loc, env.sameLocation)
  }

  /** Every entry stored at index `n` or later was extracted from some visited page. */
  ghost predicate StoredSince(env: Env, n: nat, c: CrawlState) {
    forall k :: n <= k < |c.locations| ==> exists v :: v in c.visited && c.locations[k] in FoundAt(env, v)
  }

  /** What holds between steps of the discovery phase. */
  ghost predicate Inv(env: Env, c: CrawlState) {
    c.pending.Valid() && StoreValid(c.locations, env.sameLocation) && AllNamed(c.locations) &&
    Closed(env, c) && Covered(env, c)
  }

  /** A step keeps every visited page's links visited or pending. */
  lemma StepKeepsClosed(env: Env, c: CrawlState)
    requires c.pending.Valid() && |c.pending.items| > 0 && Closed(env, c)
    ensures Closed(env, Step(env, c))
  {
    GetKeepsValid(c.pending);
    var u := c.pending.items[0];
    var rest := c.pending.Get().value.1;
    var r := Step(env, c);
    var c0 := c.(pending := rest);
    forall v, l | v in r.visited && l in LinksFrom(env, v) ensures l in r.visited || r.pending.Contains(l) {
      match env.fetch(u)
      case None =>
        assert r.pending == rest;
      case Some(page) =>
        var cp := CrawlPage(env, c0, u, page);
        assert r.pending == cp.pending;
    }
  }

  /** A stored entry stays found when the store grows at its end. */
  lemma InStoreGrows(store: seq<GeoLocation>, bigger: seq<GeoLocation>, loc: GeoLocation, same: (GeoLocation, GeoLocation) -> bool)
    requires store <= bigger
    ensures InStore(store, loc, same) ==> InStore(bigger, loc, same)
    ensures loc in store ==> loc in bigger
  {
    if InStore(store, loc, same) {
      var i :| 0 <= i < |store| && same(store[i], loc);
      assert bigger[i] == store[i];
    }
    if loc in store {
      var i :| 0 <= i < |store| && store[i] == loc;
      assert bigger[i] == store[i];
    }
  }

  /** A step keeps every located entry of every visited page stored. */
  lemma StepKeepsCovered(env: Env, c: CrawlState)
    requires c.pending.Valid() && |c.pending.items| > 0 && Covered(env, c)
    ensures Covered(env, Step(env, c))
  {
    var r := Step(env, c);
    var u := c.pending.items[0];
    forall v, loc | v in r.visited && loc in FoundAt(env, v) && |loc.points| > 0
      ensures loc in r.locations || InStore(r.locations, loc, env.sameLocation)
    {
      if v in c.visited {
        InStoreGrows(c.locations, r.locations, loc, env.sameLocation);
      } else {
        assert v == u && env.fetch(u).Some?;
      }
    }
  }

  /** A step stores only entries extracted from the page it visits. */
  lemma StepKeepsStoredSince(env: Env, n: nat, c: CrawlState)
    requires c.pending.Valid() && |c.pending.items| > 0 && StoredSince(env, n, c)
    ensures StoredSince(env, n, Step(env, c))
  {
    var r := Step(env, c);
    var u := c.pending.items[0];
    forall k | n <= k < |r.locations|
      ensures exists v :: v in r.visited && r.locations[k] in FoundAt(env, v)
    {
      if k < |c.locations| {
        assert r.locations[k] == c.locations[k];
        var v :| v in c.visited && c.locations[k] in FoundAt(env, v);
        assert v in r.visited;
      } else {
        assert env.fetch(u).Some?;
        assert r.locations[k] in FoundAt(env, u);
        assert u in r.visited;
      }
    }
  }

  /** A step keeps the invariant of the discovery phase. */
  lemma StepKeepsInv(env: Env, c: CrawlState)
    ensures Inv(env, c) && |c.pending.items| > 0 ==> Inv(env, Step(env, c))
  {
    if Inv(env, c) && |c.pending.items| > 0 {
      StepKeepsClosed(env, c);
      StepKeepsCovered(env, c);
    }
  }

  /**
   * `n` iterations of `url_handler` from `c`, stopping early once the queue
   * is empty: the reference the discovery loop is measured against.
   */
  function Iterate(env: Env, c: CrawlState, n: nat): (r: CrawlState)
    requires c.pending.Valid()
    ensures r.pending.Valid()
    ensures c.visited <= r.visited && c.locations <= r.locations
    ensures n == 0 ==> r == c
    decreases n
  {
    if n == 0 then c
    else
      var p := Iterate(env, c, n - 1);
      if |p.pending.items| == 0 then p else Step(env, p)
  }

  /** Once the queue has drained, further iterations change nothing. */
  lemma {:induction false} IterateDrainedStays(env: Env, c: CrawlState, n: nat, m: nat)
    requires c.pending.Valid() && n <= m && Iterate(env, c, n).pending.items == []
    ensures Iterate(env, c, m) == Iterate(env, c, n)
    decreases m
  {
    if m > n {
      IterateDrainedStays(env, c, n, m - 1);
      var p := Iterate(env, c, m - 1);
      assert |p.pending.items| == 0;
    } else {
      assert m == n;
    }
  }

  /** Every visited and every pending URL lies under `root`: the crawl stays in the subtree it started in. */
  ghost predicate Under(c: CrawlState, root: Url) {
    (forall v :: v in c.visited ==> IsBaseUrl(v, root)) &&
    (forall v :: c.pending.Contains(v) ==> IsBaseUrl(v, root))
  }

  /** Seeding the initial state with `seed` puts the crawl under `seed`. */
  lemma SeedIsUnder(seed: Url)
    ensures Under(AddUrlToVisit(InitialState(), seed), seed)
  {
    IsBaseUrlReflexive(seed);
  }

  /**
   * A step stays under `root`: the visited head was pending, and every link
   * it enqueues lies under the head, hence under `root`.
   */
  lemma StepKeepsUnder(env: Env, c: CrawlState, root: Url)
    requires c.pending.Valid() && |c.pending.items| > 0 && Under(c, root)
    ensures Under(Step(env, c), root)
  {
    var u := c.pending.items[0];
    var r := Step(env, c);
    assert c.pending.Contains(u);
    forall v | r.pending.Contains(v) ensures IsBaseUrl(v, root) {
      GetKeepsValid(c.pending);
      var rest := c.pending.Get().value.1;
      match env.fetch(u)
      case None =>
        assert r.pending == rest;
      case Some(page) =>
        if !c.pending.Contains(v) {
          assert v in LinksFrom(env, u);
          IsBaseUrlTransitive(v, u, root);
        }
    }
  }

  /** Any number of iterations from a state under `root` stays under `root`. */
  lemma {:induction false} IterateUnder(env: Env, c: CrawlState, root: Url, n: nat)
    requires c.pending.Valid() && Under(c, root)
    ensures Under(Iterate(env, c, n), root)
    decreases n
  {
    if n > 0 {
      IterateUnder(env, c, root, n - 1);
      var p := Iterate(env, c, n - 1);
      if |p.pending.items| > 0 {
        StepKeepsUnder(env, p, root);
      }
    }
  }

  /**
   * The discovery loop with a single worker: steps until the queue is empty
   * or `fuel` steps have run. Reports whether the queue drained and how many
   * steps ran; the final state is `Iterate` of that many steps. Every located
   * entry of a visited page is stored, and every entry stored during the loop
   * comes from a visited page.
   */
  method Crawl(env: Env, c0: CrawlState, fuel: nat) returns (c: CrawlState, drained: bool, steps: nat)
    requires Inv(env, c0)
    ensures c == Iterate(env, c0, steps)
    ensures steps <= fuel && (drained || steps == fuel)
    ensures Inv(env, c)
    ensures c0.visited <= c.visited
    ensures c0.locations <= c.locations
    ensures forall v :: c0.pending.Contains(v) ==> v in c.visited || c.pending.Contains(v)
    ensures Covered(env, c) && StoredSince(env, |c0.locations|, c)
    ensures drained <==> c.pending.items == []
  {
    c := c0;
    steps := 0;
    while steps < fuel && |c.pending.items| > 0
      invariant steps <= fuel
      invariant c == Iterate(env, c0, steps)
      invariant Inv(env, c)
      invariant c0.visited <= c.visited
      invariant c0.locations <= c.locations
      invariant forall v :: c0.pending.Contains(v) ==> v in c.visited || c.pending.Contains(v)
      invariant StoredSince(env, |c0.locations|, c)
      decreases fuel - steps
    {
      StepKeepsInv(env, c);
      StepKeepsStoredSince(env, |c0.locations|, c);
      c := Step(env, c);
      steps := steps + 1;
    }
    drained := |c.pending.items| == 0;
  }

  /** Once the queue drains, the visited set is closed under links. */
  lemma DrainedIsClosed(env: Env, c: CrawlState, v: Url, l: Url)
    requires Inv(env, c) && c.pending.items == []
    requires v in c.visited && l in LinksFrom(env, v)
    ensures l in c.visited
  {
    assert !c.pending.Contains(l);
  }

  /**
   * Once the queue drains, every URL reachable by links from a visited URL
   * has been visited: the crawl covers the whole subtree it started in.
   */
  lemma {:induction false} ReachableIsVisited(env: Env, c: CrawlState, path: seq<Url>)
    requires Inv(env, c) && c.pending.items == []
    requires |path| >= 1 && path[0] in c.visited
    requires forall i :: 0 <= i < |path| - 1 ==> path[i + 1] in LinksFrom(env, path[i])
    ensures path[|path| - 1] in c.visited
    decreases |path|
  {
    if |path| > 1 {
      var init := path[..|path| - 1];
      ReachableIsVisited(env, c, init);
      DrainedIsClosed(env, c, path[|path| - 2], path[|path| - 1]);
    }
  }

  /**
   * Pending and visited can overlap: a page that links to itself is
   * re-enqueued while it is being crawled, because between `get` and
   * `visited_urls.add` it is neither pending nor visited.
   */
  lemma SelfLinkIsPendingAndVisited(u: Url)
    ensures var page := Page([Anchor("self", Some("#"))], [], [], None);
            var env := Env(v => Some(page), (b, h) => b, t => None, (x, y) => false, t => t);
            var r := Step(env, AddUrlToVisit(InitialState(), u));
            u in r.visited && r.pending.Contains(u)
  {
    var page := Page([Anchor("self", Some("#"))], [], [], None);
    var env := Env(v => Some(page), (b, h) => b, t => None, (x, y) => false, t => t);
    assert LinkOf(env, u, page.anchors[0]) == Some(u);
    assert u in GetLinkedUrls(env, u, page.anchors);
  }
}

=== FILE: enrich.dfy ===
/**
 * The enrichment phase: after discovery, each stored location whose URL can
 * be a detail page has that page's description merged into its metadata.
 */
module Enrich {
  import opened Optional
  import opened Strings
  import opened Utils
  import opened Pages

  /** Listing pages live under this path; detail pages do not. */
  const CountryPrefix: string := "/country/"

  /** `can_be_location_page_url`: the path does not start with `/country/`. */
  function CanBeLocationPageUrl(url: Url): (r: bool)
    ensures r <==> !(CountryPrefix <= url.path)
  {
    !StartsWith(url.path, CountryPrefix)
  }

  /**
   * A detail page such as `/15002/Arad-Israel` qualifies; the country listing,
   * any page below it, and a path that merely lacks the final slash behave
   * as a plain string prefix test decides.
   */
  lemma CanBeLocationPageUrlExamples(host: string)
    ensures CanBeLocationPageUrl(Url(host, "/15002/Arad-Israel", ""))
    ensures !CanBeLocationPageUrl(Url(host, "/country/", ""))
    ensures !CanBeLocationPageUrl(Url(host, "/country/Israel/", ""))
    ensures CanBeLocationPageUrl(Url(host, "/country", ""))
  {
    assert "/15002/Arad-Israel"[1] != CountryPrefix[1];
    assert CountryPrefix <= "/country/Israel/";
    assert |"/country"| < |CountryPrefix|;
  }

  /**
   * `get_location_page_data`: a `description` entry exactly when the page has
   * a `place-description` element with non-empty text, and nothing else.
   */
  function LocationPageData(page: Page): (r: map<string, string>)
    ensures "description" in r <==> page.description.Some? && page.description.value != ""
    ensures "description" in r ==> r["description"] == page.description.value
    ensures forall k :: k in r ==> k == "description"
  {
    match page.description
    case Some(text) => if text != "" then map["description" := text] else map[]
    case None => map[]
  }

  /**
   * `location_handler`: a location whose URL can be a detail page and whose
   * page downloads gets that page's data merged in, new keys winning; any
   * other location is left as it is. URL and points never change.
   */
  function LocationHandler(env: Env, loc: GeoLocation): (r: GeoLocation)
    ensures r.url == loc.url && r.points == loc.points
    ensures forall k :: k in loc.data ==> k in r.data
    ensures forall k :: k in loc.data && k != "description" ==> r.data[k] == loc.data[k]
    ensures !CanBeLocationPageUrl(loc.url) || env.fetch(loc.url).None? ==> r == loc
    ensures CanBeLocationPageUrl(loc.url) && env.fetch(loc.url).Some? ==>
      r.data == Merge(loc.data, LocationPageData(env.fetch(loc.url).value))
  {
    if CanBeLocationPageUrl(loc.url) then
      match env.fetch(loc.url)
      case Some(page) => loc.(data := Merge(loc.data, LocationPageData(page)))
      case None => loc
    else loc
  }

  /**
   * `pool.map(self.location_handler, self.geo_locations)`: every location is
   * enriched independently, so the order is kept and each entry keeps its
   * URL, points and existing keys.
   */
  function EnrichAll(env: Env, locs: seq<GeoLocation>): (r: seq<GeoLocation>)
    ensures |r| == |locs|
    ensures forall i :: 0 <= i < |locs| ==> r[i] == LocationHandler(env, locs[i])
    ensures forall i :: 0 <= i < |r| ==>
      r[i].url == locs[i].url && r[i].points == locs[i].points &&
      (forall k :: k in locs[i].data ==> k in r[i].data)
  {
    seq(|locs|, i requires 0 <= i < |locs| => LocationHandler(env, locs[i]))
  }

  /** Enriching twice is the same as enriching once when pages do not change. */
  lemma LocationHandlerIdempotent(env: Env, loc: GeoLocation)
    ensures LocationHandler(env, LocationHandler(env, loc)) == LocationHandler(env, loc)
  {
    var r := LocationHandler(env, loc);
    if CanBeLocationPageUrl(loc.url) && env.fetch(loc.url).Some? {
      var info := LocationPageData(env.fetch(loc.url).value);
      assert Merge(r.data, info) == Merge(loc.data, info);
    }
  }
}

=== FILE: extract.dfy ===
/** The two read-only scans over a downloaded page (`get_linked_urls`, `get_geo_locations`). */
module Extract {
  import opened Optional
  import opened Utils
  import opened Pages
  import opened MapUrl

  /**
   * What one anchor contributes to `get_linked_urls(url, soup)`: its joined
   * URL, when it has a non-empty `href` and the result lies under `url`.
   */
  function LinkOf(env: Env, url: Url, a: Anchor): (r: Option<Url>)
    ensures r.Some? <==> a.href.Some? && a.href.value != "" && IsBaseUrl(env.join(url, a.href.value), url)
    ensures r.Some? ==> r.value == env.join(url, a.href.value)
  {
    if a.href.Some? && a.href.value != "" && IsBaseUrl(env.join(url, a.href.value), url) then
      Some(env.join(url, a.href.value))
    else None
  }

  /**
   * `get_linked_urls`: the in-scope joined URLs of the anchors, in anchor
   * order. Every result lies on the page's host at or below its path, and a
   * URL is produced exactly when some anchor leads to it.
   */
  function GetLinkedUrls(env: Env, url: Url, anchors: seq<Anchor>): (r: seq<Url>)
    ensures |r| <= |anchors|
    ensures forall k :: 0 <= k < |r| ==> IsBaseUrl(r[k], url)
    ensures forall u :: u in r <==> exists i :: 0 <= i < |anchors| && LinkOf(env, url, anchors[i]) == Some(u)
  {
    if |anchors| == 0 then []
    else
      var rest := GetLinkedUrls(env, url, anchors[1..]);
      var r := match LinkOf(env, url, anchors[0]) case Some(u) => [u] + rest case None => rest;
      assert forall u :: (exists i :: 0 <= i < |anchors| - 1 && LinkOf(env, url, anchors[1..][i]) == Some(u)) <==>
                         (exists i :: 1 <= i < |anchors| && LinkOf(env, url, anchors[i]) == Some(u)) by {
        forall u | exists i :: 1 <= i < |anchors| && LinkOf(env, url, anchors[i]) == Some(u)
          ensures exists i :: 0 <= i < |anchors| - 1 && LinkOf(env, url, anchors[1..][i]) == Some(u)
        {
          var i :| 1 <= i < |anchors| && LinkOf(env, url, anchors[i]) == Some(u);
          assert anchors[1..][i - 1] == anchors[i];
        }
      }
      r
  }

  /** Link extraction keeps anchor order: it distributes over concatenation. */
  lemma {:induction false} LinkedUrlsKeepOrder(env: Env, url: Url, a: seq<Anchor>, b: seq<Anchor>)
    ensures GetLinkedUrls(env, url, a + b) == GetLinkedUrls(env, url, a) + GetLinkedUrls(env, url, b)
    decreases |a|
  {
    if |a| > 0 {
      assert (a + b)[1..] == a[1..] + b;
      LinkedUrlsKeepOrder(env, url, a[1..], b);
    } else {
      assert a + b == b;
    }
  }

  /**
   * What one `li` element contributes to `get_geo_locations(url, soup)`: a
   * location when it holds exactly two anchors, the second reading "map" and
   * linking to a parsable point. The location is the first anchor's joined
   * URL, that one point, and the first anchor's text as its name.
   */
  function LocationOf(env: Env, url: Url, anchors: seq<Anchor>): (r: Option<GeoLocation>)
    ensures r.Some? <==>
      |anchors| == 2 && anchors[1].text == "map" && GetPointFromMapUrl(env, anchors[1].href).Some?
    ensures r.Some? ==>
      r.value.url == ResolveHref(env, url, anchors[0].href) &&
      r.value.points == [GetPointFromMapUrl(env, anchors[1].href).value] &&
      r.value.data == map["name" := anchors[0].text]
  {
    if |anchors| == 2 && anchors[1].text == "map" then
      match GetPointFromMapUrl(env, anchors[1].href)
      case Some(p) =>
        Some(GeoLocation(url := ResolveHref(env, url, anchors[0].href), points := [p], data := map["name" := anchors[0].text]))
      case None => None
    else None
  }

  /**
   * `get_geo_locations`: one location per qualifying `li`, in page order.
   * Each has exactly one point and metadata holding only its name.
   */
  function GetGeoLocations(env: Env, url: Url, items: seq<seq<Anchor>>): (r: seq<GeoLocation>)
    ensures |r| <= |items|
    ensures forall loc :: loc in r ==>
      |loc.points| == 1 && "name" in loc.data && loc.data == map["name" := loc.data["name"]]
  {
    if |items| == 0 then []
    else
      var rest := GetGeoLocations(env, url, items[1..]);
      match LocationOf(env, url, items[0])
      case Some(loc) => [loc] + rest
      case None => rest
  }

  /** An extracted location comes from some `li` of the page. */
  lemma {:induction false} GeoLocationHasItem(env: Env, url: Url, items: seq<seq<Anchor>>, loc: GeoLocation)
    requires loc in GetGeoLocations(env, url, items)
    ensures exists i :: 0 <= i < |items| && LocationOf(env, url, items[i]) == Some(loc)
    decreases |items|
  {
    var rest := items[1..];
    if LocationOf(env, url, items[0]) != Some(loc) {
      assert loc in GetGeoLocations(env, url, rest);
      GeoLocationHasItem(env, url, rest, loc);
      var i :| 0 <= i < |rest| && LocationOf(env, url, rest[i]) == Some(loc);
      assert rest[i] == items[i + 1];
    }
  }

  /** Every location some `li` of the page yields is extracted. */
  lemma GeoLocationOfItem(env: Env, url: Url, items: seq<seq<Anchor>>, i: nat, loc: GeoLocation)
    requires i < |items| && LocationOf(env, url, items[i]) == Some(loc)
    ensures loc in GetGeoLocations(env, url, items)
  {
    var before, from := items[..i], items[i..];
    assert items == before + from;
    GeoLocationsKeepOrder(env, url, before, from);
    assert from[0] == items[i];
  }

  /** A location is extracted exactly when some `li` of the page yields it. */
  lemma GeoLocationsFromItems(env: Env, url: Url, items: seq<seq<Anchor>>, loc: GeoLocation)
    ensures loc in GetGeoLocations(env, url, items) <==>
      exists i :: 0 <= i < |items| && LocationOf(env, url, items[i]) == Some(loc)
  {
    if loc in GetGeoLocations(env, url, items) {
      GeoLocationHasItem(env, url, items, loc);
    }
    if exists i :: 0 <= i < |items| && LocationOf(env, url, items[i]) == Some(loc) {
      var i :| 0 <= i < |items| && LocationOf(env, url, items[i]) == Some(loc);
      GeoLocationOfItem(env, url, items, i, loc);
    }
  }

  /** Location extraction keeps page order: it distributes over concatenation. */
  lemma {:induction false} GeoLocationsKeepOrder(env: Env, url: Url, a: seq<seq<Anchor>>, b: seq<seq<Anchor>>)
    ensures GetGeoLocations(env, url, a + b) == GetGeoLocations(env, url, a) + GetGeoLocations(env, url, b)
    decreases |a|
  {
    if |a| > 0 {
      assert (a + b)[1..] == a[1..] + b;
      GeoLocationsKeepOrder(env, url, a[1..], b);
    } else {
      assert a + b == b;
    }
  }
}

=== FILE: geojson.dfy ===
/** `build_geojson`: the stored locations as a GeoJSON feature collection. */
module GeoJson {
  import opened Optional
  import opened Pages
  import opened Enrich

  /** A GeoJSON `Point` geometry; its coordinates are `[lon, lat]`. */
  datatype Geometry = Point(coordinates: seq<Coord>)

  /** A GeoJSON `Feature`: a geometry and the location's metadata as properties. */
  datatype Feature = Feature(geometry: Geometry, properties: map<string, string>)

  datatype FeatureCollection = FeatureCollection(features: seq<Feature>)

  /**
   * The feature of one location: the first point, longitude first, with the
   * metadata as properties; none for a location without points.
   */
  function FeatureOf(loc: GeoLocation): (r: Option<Feature>)
    ensures r.Some? <==> |loc.points| > 0
    ensures r.Some? ==> r.value.properties == loc.data
    ensures r.Some? ==> r.value.geometry.coordinates == [loc.points[0].lon, loc.points[0].lat]
  {
    if |loc.points| > 0 then Some(Feature(Point([loc.points[0].lon, loc.points[0].lat]), loc.data)) else None
  }

  /** The feature list, one feature per location with a point, in store order. */
  function BuildFeatures(locs: seq<GeoLocation>): (r: seq<Feature>)
    ensures |r| <= |locs|
    ensures forall k :: 0 <= k < |r| ==> |r[k].geometry.coordinates| == 2
    decreases |locs|
  {
    if |locs| == 0 then []
    else
      var rest := BuildFeatures(locs[1..]);
      match FeatureOf(locs[0])
      case Some(f) => [f] + rest
      case None => rest
  }

  function BuildGeoJson(locs: seq<GeoLocation>): (r: FeatureCollection)
    ensures |r.features| <= |locs|
  {
    FeatureCollection(BuildFeatures(locs))
  }

  /** Building distributes over concatenation: the order of the store is kept. */
  lemma {:induction false} BuildFeaturesAppend(a: seq<GeoLocation>, b: seq<GeoLocation>)
    ensures BuildFeatures(a + b) == BuildFeatures(a) + BuildFeatures(b)
    decreases |a|
  {
    if |a| > 0 {
      assert (a + b)[1..] == a[1..] + b;
      BuildFeaturesAppend(a[1..], b);
    } else {
      assert a + b == b;
    }
  }

  /**
   * When every location has a point (as the crawler's store guarantees) there
   * is exactly one feature per location, at the same index.
   */
  lemma {:induction false} BuildFeaturesOfLocated(locs: seq<GeoLocation>)
    requires forall i :: 0 <= i < |locs| ==> |locs[i].points| > 0
    ensures |BuildFeatures(locs)| == |locs|
    ensures forall i :: 0 <= i < |locs| ==> Some(BuildFeatures(locs)[i]) == FeatureOf(locs[i])
    decreases |locs|
  {
    if |locs| > 0 {
      BuildFeaturesOfLocated(locs[1..]);
      var r := BuildFeatures(locs);
      forall i | 0 <= i < |locs| ensures Some(r[i]) == FeatureOf(locs[i]) {
        if i > 0 {
          assert locs[1..][i - 1] == locs[i];
        }
      }
    }
  }

  /** A feature is built exactly when some location yields it. */
  lemma {:induction false} BuildFeaturesMembership(locs: seq<GeoLocation>, f: Feature)
    ensures f in BuildFeatures(locs) <==> exists i :: 0 <= i < |locs| && FeatureOf(locs[i]) == Some(f)
    decreases |locs|
  {
    if |locs| > 0 {
      BuildFeaturesMembership(locs[1..], f);
      if exists i :: 0 <= i < |locs| && FeatureOf(locs[i]) == Some(f) {
        var i :| 0 <= i < |locs| && FeatureOf(locs[i]) == Some(f);
        if i > 0 {
          assert locs[1..][i - 1] == locs[i];
        }
      }
      if exists i :: 0 <= i < |locs[1..]| && FeatureOf(locs[1..][i]) == Some(f) {
        var i :| 0 <= i < |locs[1..]| && FeatureOf(locs[1..][i]) == Some(f);
        assert locs[i + 1] == locs[1..][i];
      }
    }
  }

  /**
   * Enrichment changes properties only: the collection built after it has
   * the same features count and the same geometries, and every property key
   * from before is still there.
   */
  lemma {:induction false} EnrichKeepsGeometry(env: Env, locs: seq<GeoLocation>)
    ensures var before := BuildFeatures(locs);
            var after := BuildFeatures(EnrichAll(env, locs));
            |after| == |before| &&
            forall k :: 0 <= k < |before| ==>
              after[k].geometry == before[k].geometry &&
              (forall key :: key in before[k].properties ==> key in after[k].properties)
    decreases |locs|
  {
    if |locs| > 0 {
      var e := EnrichAll(env, locs);
      assert EnrichAll(env, locs[1..]) == e[1..];
      EnrichKeepsGeometry(env, locs[1..]);
    }
  }
}

=== FILE: map_url.dfy ===
/**
 * Reading coordinates out of a "map" link such as
 * `/#lang=en&lat=-14.260057&lon=-170.649948&z=13&m=w`
 * (`get_params_from_map_url`, `get_point_from_map_url`).
 */
module MapUrl {
  import opened Optional
  import opened Strings
  import opened Pages

  /**
   * `re.sub(r'^.*?lat', '?lat', s)`: everything before the first "lat" is
   * replaced by a `?`; a text without "lat" is left as it is.
   */
  function RewriteMapUrl(s: string): (r: string)
    ensures Find(s, "lat").Some? ==> r == "?" + s[Find(s, "lat").value..]
    ensures Find(s, "lat").None? ==> r == s
  {
    match Find(s, "lat")
    case Some(i) =>
      assert s[i..] == "lat" + s[i + 3..] by { assert s[i..i + 3] == "lat"; }
      "?lat" + s[i + 3..]
    case None => s
  }

  /** `s` with its `#` fragment cut off: the longest prefix without `#`. */
  function BeforeFragment(s: string): (r: string)
    ensures r <= s && '#' !in r
    ensures |r| < |s| ==> s[|r|] == '#'
  {
    match IndexOf(s, '#') case Some(i) => s[..i] case None => s
  }

  /**
   * `urlparse(s).query`: with the fragment cut off, the text after the first
   * `?`; empty when there is no `?` before the fragment.
   */
  function QueryOf(s: string): (r: string)
    ensures '#' !in r
    ensures '?' !in BeforeFragment(s) ==> r == ""
    ensures forall i :: 0 <= i < |BeforeFragment(s)| && BeforeFragment(s)[i] == '?' && '?' !in BeforeFragment(s)[..i] ==>
      r == BeforeFragment(s)[i + 1..]
  {
    var b := BeforeFragment(s);
    match IndexOf(b, '?')
    case Some(j) =>
      assert forall c :: c in b[j + 1..] ==> c in b;
      b[j + 1..]
    case None => ""
  }

  /** A text that starts with `?` and has no fragment is all query. */
  lemma QueryOfQuestionMark(q: string)
    requires '#' !in q
    ensures QueryOf("?" + q) == q
  {
    var s := "?" + q;
    assert s[0] == '?';
    assert '#' !in s;
    assert IndexOf(s, '?') == Some(0) by {
      var r := IndexOf(s, '?');
      assert r.Some?;
    }
    assert s[1..] == q;
  }

  /**
   * One `&`-separated field as `parse_qs` reads it by default: split at the
   * first `=`; a field without `=` or with an empty value is dropped.
   */
  function ParseField(field: string): (r: Option<(string, string)>)
    ensures r.Some? ==> field == r.value.0 + "=" + r.value.1 && '=' !in r.value.0 && r.value.1 != ""
    ensures r.None? <==> |field| == 0 || '=' !in field[..|field| - 1]
  {
    match IndexOf(field, '=')
    case None => None
    case Some(i) =>
      assert field[..|field| - 1][..i] == field[..i];
      if i + 1 == |field| then None
      else
        assert field[i] in field[..|field| - 1];
        assert field == field[..i] + "=" + field[i + 1..];
        Some((field[..i], field[i + 1..]))
  }

  /** A well-formed `key=value` field reads back as that pair. */
  lemma ParseFieldOfPair(key: string, value: string)
    requires '=' !in key && value != ""
    ensures ParseField(key + "=" + value) == Some((key, value))
  {
    var f := key + "=" + value;
    assert f[|key|] == '=';
    assert f[..|key|] == key;
    assert IndexOf(f, '=') == Some(|key|) by {
      var r := IndexOf(f, '=');
      assert '=' in f;
    }
    assert f[|key| + 1..] == value;
  }

  /**
   * The fragment is cut before the query is taken: the query of
   * `?q#fragment` is `q`, whatever the fragment holds.
   */
  lemma QueryOfCutsFragment(q: string, fragment: string)
    requires '#' !in q
    ensures QueryOf("?" + q + "#" + fragment) == q
  {
    var s := "?" + q + "#" + fragment;
    var b := BeforeFragment(s);
    assert s[|q| + 1] == '#';
    assert s[..|q| + 1] == "?" + q;
    assert b == "?" + q;
    assert b[0] == '?' && '?' !in b[..0];
  }

  /** A leading `?` stays in front of the fragment cut, which happens at the same `#`. */
  lemma BeforeFragmentAfterMark(t: string)
    ensures BeforeFragment("?" + t) == "?" + BeforeFragment(t)
  {
    var s := "?" + t;
    var bt := BeforeFragment(t);
    assert s[..|bt| + 1] == "?" + bt;
    assert |bt| < |t| ==> s[|bt| + 1] == '#';
    assert '#' !in "?" + bt;
  }

  /** Without a `#` there is no fragment to cut. */
  lemma BeforeFragmentWhole(t: string)
    ensures '#' !in t ==> BeforeFragment(t) == t
  {
  }

  /** The query of `?t` is `t` up to its first `#`. */
  lemma QueryOfMarked(t: string)
    ensures QueryOf("?" + t) == BeforeFragment(t)
  {
    BeforeFragmentAfterMark(t);
    var b := BeforeFragment("?" + t);
    assert b[0] == '?' && '?' !in b[..0];
    assert b[1..] == BeforeFragment(t);
  }

  /** The fields of a query that survive, in order. */
  function ParseFields(fields: seq<string>): (r: seq<(string, string)>)
    ensures |r| <= |fields|
    ensures forall k :: 0 <= k < |r| ==> r[k].1 != "" && '=' !in r[k].0
  {
    if |fields| == 0 then []
    else
      var rest := ParseFields(fields[1..]);
      match ParseField(fields[0])
      case Some(p) => [p] + rest
      case None => rest
  }

  /** Reading fields distributes over concatenation: no field affects another. */
  lemma {:induction false} ParseFieldsAppend(a: seq<string>, b: seq<string>)
    ensures ParseFields(a + b) == ParseFields(a) + ParseFields(b)
    decreases |a|
  {
    if |a| > 0 {
      assert (a + b)[1..] == a[1..] + b;
      ParseFieldsAppend(a[1..], b);
    } else {
      assert a + b == b;
    }
  }

  /** One field gives its pair, or nothing when it is dropped. */
  lemma ParseFieldsSingle(f: string)
    ensures ParseField(f).Some? ==> ParseFields([f]) == [ParseField(f).value]
    ensures ParseField(f).None? ==> ParseFields([f]) == []
  {
    assert [f][1..] == [];
  }

  /**
   * A dropped field (blank, or without `=` before its last character) is
   * skipped and the fields after it are still read: `lat=1&&lon=2` gives
   * both pairs.
   */
  lemma DroppedFieldSkipped(a: seq<string>, f: string, b: seq<string>)
    requires ParseField(f).None?
    ensures ParseFields(a + [f] + b) == ParseFields(a) + ParseFields(b)
  {
    ParseFieldsAppend(a + [f], b);
    ParseFieldsAppend(a, [f]);
    ParseFieldsSingle(f);
  }

  /** In a query, an empty field between two `&` is skipped: `a&&b` reads as `a&b` does. */
  lemma BlankFieldInQuery(a: string, b: string)
    requires '&' !in a && '&' !in b
    ensures ParseQsl(a + "&&" + b) == ParseFields([a]) + ParseFields([b])
  {
    var fields := [a, "", b];
    assert fields[1..] == ["", b] && fields[1..][1..] == [b];
    assert Join(fields[1..], '&') == "" + "&" + b;
    assert Join(fields, '&') == a + "&" + ("" + "&" + b);
    assert a + "&" + ("" + "&" + b) == a + "&&" + b;
    ParseQslOfFields(fields);
    DroppedFieldSkipped([a], "", [b]);
    assert [a] + [""] + [b] == fields;
  }

  /** `parse_qsl(qs)` with default flags: the `(key, value)` pairs in query order. */
  function ParseQsl(qs: string): (r: seq<(string, string)>)
    ensures forall k :: 0 <= k < |r| ==> r[k].1 != "" && '=' !in r[k].0
    ensures forall k :: 0 <= k < |r| ==> '&' !in r[k].0 && '&' !in r[k].1
  {
    var fields := Split(qs, '&');
    var r := ParseFields(fields);
    assert forall k :: 0 <= k < |r| ==> '&' !in r[k].0 && '&' !in r[k].1 by {
      FieldsKeepSeparatorOut(fields);
    }
    r
  }

  /** The `&`-free fields give `&`-free keys and values. */
  lemma {:induction false} FieldsKeepSeparatorOut(fields: seq<string>)
    requires forall i :: 0 <= i < |fields| ==> '&' !in fields[i]
    ensures forall k :: 0 <= k < |ParseFields(fields)| ==>
      '&' !in ParseFields(fields)[k].0 && '&' !in ParseFields(fields)[k].1
  {
    if |fields| > 0 {
      FieldsKeepSeparatorOut(fields[1..]);
      var p := ParseField(fields[0]);
      if p.Some? {
        var f := fields[0];
        assert f == p.value.0 + "=" + p.value.1;
        forall c | c in p.value.0 ensures c in f { var j :| 0 <= j < |p.value.0| && p.value.0[j] == c; assert f[j] == c; }
        forall c | c in p.value.1 ensures c in f {
          var j :| 0 <= j < |p.value.1| && p.value.1[j] == c;
          assert f[|p.value.0| + 1 + j] == c;
        }
      }
    }
  }

  /** The query string `k1=v1&k2=v2&...` for non-empty `pairs`. */
  function QueryString(pairs: seq<(string, string)>): string
    requires |pairs| >= 1
  {
    Join(FieldsOf(pairs), '&')
  }

  /** The `key=value` fields of `pairs`. */
  function FieldsOf(pairs: seq<(string, string)>): (r: seq<string>)
    ensures |r| == |pairs|
    ensures forall i :: 0 <= i < |pairs| ==> r[i] == pairs[i].0 + "=" + pairs[i].1
  {
    if |pairs| == 0 then [] else [pairs[0].0 + "=" + pairs[0].1] + FieldsOf(pairs[1..])
  }

  /** Pairs that `parse_qs` can represent: `=`- and `&`-free keys, non-empty `&`-free values. */
  ghost predicate WellFormedPairs(pairs: seq<(string, string)>) {
    forall i :: 0 <= i < |pairs| ==>
      '=' !in pairs[i].0 && '&' !in pairs[i].0 && '&' !in pairs[i].1 && pairs[i].1 != ""
  }

  /** `parse_qsl` of `&`-free fields joined by `&` reads those fields in order. */
  lemma ParseQslOfFields(fields: seq<string>)
    requires |fields| >= 1
    requires forall i :: 0 <= i < |fields| ==> '&' !in fields[i]
    ensures ParseQsl(Join(fields, '&')) == ParseFields(fields)
  {
    SplitJoin(fields, '&');
  }

  /** `parse_qsl` reads back exactly the pairs a query string was written from. */
  lemma ParseQslOfQueryString(pairs: seq<(string, string)>)
    requires |pairs| >= 1 && WellFormedPairs(pairs)
    ensures ParseQsl(QueryString(pairs)) == pairs
  {
    var fields := FieldsOf(pairs);
    forall i | 0 <= i < |fields| ensures '&' !in fields[i] {
      var f := fields[i];
      forall j | 0 <= j < |f| ensures f[j] != '&' {
        if j < |pairs[i].0| {
          assert f[j] == pairs[i].0[j];
        } else if j > |pairs[i].0| {
          assert f[j] == pairs[i].1[j - |pairs[i].0| - 1];
        }
      }
    }
    SplitJoin(fields, '&');
    ParseFieldsOfFields(pairs);
  }

  /** Reading back the fields written from well-formed pairs gives the pairs. */
  lemma {:induction false} ParseFieldsOfFields(pairs: seq<(string, string)>)
    requires WellFormedPairs(pairs)
    ensures ParseFields(FieldsOf(pairs)) == pairs
  {
    if |pairs| > 0 {
      ParseFieldOfPair(pairs[0].0, pairs[0].1);
      assert FieldsOf(pairs)[1..] == FieldsOf(pairs[1..]);
      ParseFieldsOfFields(pairs[1..]);
    }
  }

  /** The values given for `key`, in query order: the reference for `parse_qs`. */
  function ValuesFor(pairs: seq<(string, string)>, key: string): seq<string>
  {
    if |pairs| == 0 then []
    else
      var last := pairs[|pairs| - 1];
      ValuesFor(pairs[..|pairs| - 1], key) + (if last.0 == key then [last.1] else [])
  }

  /**
   * `parse_qs`: a dictionary built by appending each pair's value to its key's
   * list; every key present has at least one value.
   */
  function ParseQs(pairs: seq<(string, string)>): (r: map<string, seq<string>>)
    ensures forall key :: key in r ==> r[key] != []
  {
    if |pairs| == 0 then map[]
    else
      var m := ParseQs(pairs[..|pairs| - 1]);
      var last := pairs[|pairs| - 1];
      m[last.0 := if last.0 in m then m[last.0] + [last.1] else [last.1]]
  }

  /** The keys of `parse_qs` are the keys that occur, each with all of its values in order. */
  lemma {:induction false} ParseQsCollectsValues(pairs: seq<(string, string)>, key: string)
    ensures key in ParseQs(pairs) <==> ValuesFor(pairs, key) != []
    ensures key in ParseQs(pairs) ==> ParseQs(pairs)[key] == ValuesFor(pairs, key)
  {
    if |pairs| > 0 {
      ParseQsCollectsValues(pairs[..|pairs| - 1], key);
    }
  }

  /** A key that no pair carries has no values. */
  lemma {:induction false} ValuesForAbsentKey(pairs: seq<(string, string)>, key: string)
    requires forall j :: 0 <= j < |pairs| ==> pairs[j].0 != key
    ensures ValuesFor(pairs, key) == []
  {
    if |pairs| > 0 {
      ValuesForAbsentKey(pairs[..|pairs| - 1], key);
    }
  }

  /** A key that exactly one pair carries has exactly that pair's value. */
  lemma {:induction false} ValuesForUniqueKey(pairs: seq<(string, string)>, i: nat)
    requires i < |pairs|
    requires forall j :: 0 <= j < |pairs| && j != i ==> pairs[j].0 != pairs[i].0
    ensures ValuesFor(pairs, pairs[i].0) == [pairs[i].1]
    decreases |pairs|
  {
    var init := pairs[..|pairs| - 1];
    if i == |pairs| - 1 {
      ValuesForAbsentKey(init, pairs[i].0);
    } else {
      assert init[i] == pairs[i];
      ValuesForUniqueKey(init, i);
    }
  }

  /** A parameter after flattening: a lone value, or the list of repeated values. */
  datatype ParamValue = Single(value: string) | Many(values: seq<string>)

  /** The values a flattened parameter stands for. */
  function ValuesOf(p: ParamValue): seq<string> {
    match p
    case Single(v) => [v]
    case Many(vs) => vs
  }

  /** Collapses each one-element value list to its element; longer lists stay lists. */
  function Flatten(params: map<string, seq<string>>): (r: map<string, ParamValue>)
    ensures r.Keys == params.Keys
    ensures forall key :: key in r ==> ValuesOf(r[key]) == params[key]
    ensures forall key :: key in r ==> (r[key].Single? <==> |params[key]| == 1)
  {
    map key | key in params :: if |params[key]| == 1 then Single(params[key][0]) else Many(params[key])
  }

  /**
   * After `parse_qs` and flattening, a key is present exactly when some pair
   * carries it; one value becomes a scalar and repeated values stay a list.
   */
  lemma FlattenedParamValues(pairs: seq<(string, string)>, key: string)
    ensures key in Flatten(ParseQs(pairs)) <==> ValuesFor(pairs, key) != []
    ensures |ValuesFor(pairs, key)| == 1 ==> Flatten(ParseQs(pairs))[key] == Single(ValuesFor(pairs, key)[0])
    ensures |ValuesFor(pairs, key)| >= 2 ==> Flatten(ParseQs(pairs))[key] == Many(ValuesFor(pairs, key))
  {
    ParseQsCollectsValues(pairs, key);
  }

  /**
   * `get_params_from_map_url`: the parameters are those of the query that
   * starts at the first "lat", everything before it discarded and any `#`
   * fragment cut off; a link without "lat" keeps its own query, so one with
   * no "lat", `?` or `#` has none.
   */
  function GetParamsFromMapUrl(mapUrl: string): (r: map<string, ParamValue>)
    ensures Find(mapUrl, "lat").Some? ==>
      r == Flatten(ParseQs(ParseQsl(BeforeFragment(mapUrl[Find(mapUrl, "lat").value..]))))
    ensures Find(mapUrl, "lat").Some? && '#' !in mapUrl[Find(mapUrl, "lat").value..] ==>
      r == Flatten(ParseQs(ParseQsl(mapUrl[Find(mapUrl, "lat").value..])))
    ensures Find(mapUrl, "lat").None? ==> r == Flatten(ParseQs(ParseQsl(QueryOf(mapUrl))))
    ensures Find(mapUrl, "lat").None? && '?' !in mapUrl && '#' !in mapUrl ==> r == map[]
  {
    var query := QueryOf(RewriteMapUrl(mapUrl));
    match Find(mapUrl, "lat")
    case Some(at) =>
      var t := mapUrl[at..];
      QueryOfMarked(t);
      BeforeFragmentWhole(t);
      assert query == BeforeFragment(t);
      Flatten(ParseQs(ParseQsl(query)))
    case None =>
      assert query == QueryOf(mapUrl);
      assert '?' !in mapUrl && '#' !in mapUrl ==> ParseQsl(QueryOf(mapUrl)) == [] by {
        if '?' !in mapUrl && '#' !in mapUrl {
          assert BeforeFragment(mapUrl) == mapUrl;
          assert Split("", '&') == [""];
          assert ParseField("").None?;
        }
      }
      Flatten(ParseQs(ParseQsl(query)))
  }

  /** A parameter's text when it is truthy and `float` accepts its type: one non-empty value. */
  function ScalarParam(params: map<string, ParamValue>, key: string): (r: Option<string>)
    ensures r.Some? <==> key in params && params[key].Single? && params[key].value != ""
    ensures r.Some? ==> r.value == params[key].value
  {
    if key in params && params[key].Single? && params[key].value != "" then Some(params[key].value) else None
  }

  /**
   * After `parse_qs` and flattening, a key gives the text `v` exactly when `v`
   * is its one and only value and is non-empty.
   */
  lemma ScalarParamOfPairs(pairs: seq<(string, string)>, key: string, v: string)
    ensures ScalarParam(Flatten(ParseQs(pairs)), key) == Some(v) <==> ValuesFor(pairs, key) == [v] && v != ""
  {
    FlattenedParamValues(pairs, key);
    ParseQsCollectsValues(pairs, key);
  }

  /**
   * `get_point_from_map_url`: never raises. A missing href (on which `re.sub`
   * raises), a missing, empty or repeated `lat` or `lon` (a list makes `float`
   * raise), or an unparsable number all give `None`.
   */
  function GetPointFromMapUrl(env: Env, mapUrl: Option<string>): (r: Option<GeoPoint>)
    ensures r.Some? <==>
      mapUrl.Some? &&
      ScalarParam(GetParamsFromMapUrl(mapUrl.value), "lat").Some? &&
      ScalarParam(GetParamsFromMapUrl(mapUrl.value), "lon").Some? &&
      env.parseFloat(ScalarParam(GetParamsFromMapUrl(mapUrl.value), "lat").value).Some? &&
      env.parseFloat(ScalarParam(GetParamsFromMapUrl(mapUrl.value), "lon").value).Some?
    ensures r.Some? ==>
      Some(r.value.lat) == env.parseFloat(ScalarParam(GetParamsFromMapUrl(mapUrl.value), "lat").value) &&
      Some(r.value.lon) == env.parseFloat(ScalarParam(GetParamsFromMapUrl(mapUrl.value), "lon").value)
  {
    if mapUrl.None? then None
    else
      var params := GetParamsFromMapUrl(mapUrl.value);
      var lat := ScalarParam(params, "lat");
      var lon := ScalarParam(params, "lon");
      if lat.Some? && lon.Some? then
        match (env.parseFloat(lat.value), env.parseFloat(lon.value))
        case (Some(y), Some(x)) => Some(GeoPoint(lon := x, lat := y))
        case _ => None
      else None
  }
}

=== FILE: map_url_examples.dfy ===
/** The map link `/#lang=en&lat=-14.260057&lon=-170.649948&z=13&m=w` worked through. */
module MapUrlExamples {
  import opened Optional
  import opened Strings
  import opened Pages
  import opened MapUrl

  /** `pat` cannot start at `j` once one of its characters disagrees. */
  lemma NoMatchAt(s: string, pat: string, j: nat, k: nat)
    requires k < |pat| && j + k < |s| && s[j + k] != pat[k]
    ensures !OccursAt(s, pat, j)
  {
  }

  /**
   * Everything before the first "lat" is discarded: the parameters are those
   * of the query that starts at it.
   */
  lemma ParamsAfterPrefix(head: string, q: string)
    requires |q| >= 3 && q[..3] == "lat" && '#' !in q
    requires forall j :: 0 <= j < |head| ==> !OccursAt(head + q[..2], "lat", j)
    ensures GetParamsFromMapUrl(head + q) == Flatten(ParseQs(ParseQsl(q)))
  {
    var s := head + q;
    assert s[|head|..|head| + 3] == q[..3];
    forall j | 0 <= j < |head| ensures !OccursAt(s, "lat", j) {
      assert !OccursAt(head + q[..2], "lat", j);
    }
    FindIsFirstOccurrence(s, "lat", |head|);
    assert s[|head|..] == q;
    QueryOfQuestionMark(q);
  }

  /** "lat" does not start inside `/#lang=en&`. */
  lemma HeadHasNoLat(w: string)
    requires w == "/#lang=en&la"
    ensures forall j :: 0 <= j < 10 ==> !OccursAt(w, "lat", j)
  {
    forall j | 0 <= j < 10 ensures !OccursAt(w, "lat", j) {
      if w[j] != 'l' {
        NoMatchAt(w, "lat", j, 0);
      } else {
        NoMatchAt(w, "lat", j, 2);
      }
    }
  }

  /** The four pairs of the example written back as `key=value` fields. */
  lemma ExampleFields(pairs: seq<(string, string)>)
    requires pairs == [("lat", "-14.260057"), ("lon", "-170.649948"), ("z", "13"), ("m", "w")]
    ensures FieldsOf(pairs) == ["lat=-14.260057", "lon=-170.649948", "z=13", "m=w"]
  {
    var f := FieldsOf(pairs);
    assert f[0] == "lat=-14.260057";
    assert f[1] == "lon=-170.649948";
    assert f[2] == "z=13";
    assert f[3] == "m=w";
  }

  /** The four fields joined by `&` are the example's query text. */
  lemma ExampleJoin(f: seq<string>)
    requires f == ["lat=-14.260057", "lon=-170.649948", "z=13", "m=w"]
    ensures Join(f, '&') == "lat=-14.260057&lon=-170.649948&z=13&m=w"
  {
    assert f[1..] == ["lon=-170.649948", "z=13", "m=w"];
    assert f[2..] == ["z=13", "m=w"];
    assert f[3..] == ["m=w"];
    assert Join(f[3..], '&') == "m=w";
    assert Join(f[2..], '&') == "z=13" + "&" + "m=w";
    assert Join(f[1..], '&') == "lon=-170.649948" + "&" + "z=13&m=w";
    assert Join(f, '&') == "lat=-14.260057" + "&" + "lon=-170.649948&z=13&m=w";
  }

  /** The query of the example reads as its four pairs, in order. */
  lemma ExampleQuery(q: string, pairs: seq<(string, string)>)
    requires q == "lat=-14.260057&lon=-170.649948&z=13&m=w"
    requires pairs == [("lat", "-14.260057"), ("lon", "-170.649948"), ("z", "13"), ("m", "w")]
    ensures ParseQsl(q) == pairs
  {
    ExampleFields(pairs);
    ExampleJoin(FieldsOf(pairs));
    ParseQslOfQueryString(pairs);
  }

  /** The example link's parameters are those of its four pairs. */
  lemma ExampleParamsFromPairs(s: string, pairs: seq<(string, string)>)
    requires s == "/#lang=en&" + "lat=-14.260057&lon=-170.649948&z=13&m=w"
    requires pairs == [("lat", "-14.260057"), ("lon", "-170.649948"), ("z", "13"), ("m", "w")]
    ensures GetParamsFromMapUrl(s) == Flatten(ParseQs(pairs))
  {
    ExampleSplit(s, s[..10], s[10..]);
    assert s == s[..10] + s[10..];
    ParamsAfterPrefix(s[..10], s[10..]);
    ExampleQuery(s[10..], pairs);
  }

  /** The example link is `/#lang=en&` followed by a query that starts with "lat". */
  lemma ExampleSplit(s: string, head: string, q: string)
    requires s == "/#lang=en&" + "lat=-14.260057&lon=-170.649948&z=13&m=w"
    requires head == s[..10] && q == s[10..]
    ensures q == "lat=-14.260057&lon=-170.649948&z=13&m=w"
    ensures |q| >= 3 && q[..3] == "lat" && '#' !in q
    ensures forall j :: 0 <= j < |head| ==> !OccursAt(head + q[..2], "lat", j)
  {
    ExamplePieces(s, head, q);
    ExampleQueryStart(q);
    HeadHasNoLat(head + q[..2]);
  }

  /** The pieces of the example link: the prefix before "lat" and the query from it. */
  lemma ExamplePieces(s: string, head: string, q: string)
    requires s == "/#lang=en&" + "lat=-14.260057&lon=-170.649948&z=13&m=w"
    requires head == s[..10] && q == s[10..]
    ensures head == "/#lang=en&" && q == "lat=-14.260057&lon=-170.649948&z=13&m=w"
  {
    assert |"/#lang=en&"| == 10;
  }

  /** The example query starts with "lat" and holds no fragment. */
  lemma ExampleQueryStart(q: string)
    requires q == "lat=-14.260057&lon=-170.649948&z=13&m=w"
    ensures |q| >= 3 && q[..3] == "lat" && q[..2] == "la" && '#' !in q
  {
    assert q[0] == 'l' && q[1] == 'a' && q[2] == 't';
  }

  /** A key carried by none of four pairs is not a parameter. */
  lemma AbsentFromFour(ps: seq<(string, string)>, key: string)
    requires |ps| == 4 && ps[0].0 != key && ps[1].0 != key && ps[2].0 != key && ps[3].0 != key
    ensures key !in ParseQs(ps)
  {
    ValuesForAbsentKey(ps, key);
    ParseQsCollectsValues(ps, key);
  }

  /** A key carried by exactly one of the pairs maps to that pair's value alone. */
  lemma UniqueInFour(ps: seq<(string, string)>, i: nat)
    requires i < |ps| == 4
    requires forall j :: 0 <= j < 4 && j != i ==> ps[j].0 != ps[i].0
    ensures ps[i].0 in ParseQs(ps) && ParseQs(ps)[ps[i].0] == [ps[i].1]
  {
    ValuesForUniqueKey(ps, i);
    ParseQsCollectsValues(ps, ps[i].0);
  }

  /** Four pairs with distinct keys collect into four one-element lists. */
  lemma ParseQsFourKeys(ps: seq<(string, string)>)
    requires |ps| == 4
    requires forall i, j :: 0 <= i < j < 4 ==> ps[i].0 != ps[j].0
    ensures ParseQs(ps).Keys == {ps[0].0, ps[1].0, ps[2].0, ps[3].0}
    ensures forall i :: 0 <= i < 4 ==> ParseQs(ps)[ps[i].0] == [ps[i].1]
  {
    forall i | 0 <= i < 4 ensures ps[i].0 in ParseQs(ps) && ParseQs(ps)[ps[i].0] == [ps[i].1] {
      UniqueInFour(ps, i);
    }
    forall key | key in ParseQs(ps) ensures key in {ps[0].0, ps[1].0, ps[2].0, ps[3].0} {
      if key != ps[0].0 && key != ps[1].0 && key != ps[2].0 && key != ps[3].0 {
        AbsentFromFour(ps, key);
      }
    }
  }

  /** Four distinct keys, each with one value, flatten to four scalars. */
  lemma ExamplePairsFlatten(pairs: seq<(string, string)>)
    requires pairs == [("lat", "-14.260057"), ("lon", "-170.649948"), ("z", "13"), ("m", "w")]
    ensures Flatten(ParseQs(pairs)).Keys == {"lat", "lon", "z", "m"}
    ensures Flatten(ParseQs(pairs))["lat"] == Single("-14.260057")
    ensures Flatten(ParseQs(pairs))["lon"] == Single("-170.649948")
    ensures Flatten(ParseQs(pairs))["z"] == Single("13")
    ensures Flatten(ParseQs(pairs))["m"] == Single("w")
  {
    ParseQsFourKeys(pairs);
    assert pairs[0].0 == "lat" && pairs[1].0 == "lon" && pairs[2].0 == "z" && pairs[3].0 == "m";
  }

  /**
   * The example map link yields `lat`, `lon`, `z` and `m` as single values;
   * `lang`, which precedes the first "lat", is gone.
   */
  lemma ExampleParams(s: string)
    requires s == "/#lang=en&" + "lat=-14.260057&lon=-170.649948&z=13&m=w"
    ensures GetParamsFromMapUrl(s).Keys == {"lat", "lon", "z", "m"}
    ensures GetParamsFromMapUrl(s)["lat"] == Single("-14.260057")
    ensures GetParamsFromMapUrl(s)["lon"] == Single("-170.649948")
    ensures GetParamsFromMapUrl(s)["z"] == Single("13")
    ensures GetParamsFromMapUrl(s)["m"] == Single("w")
  {
    var pairs := [("lat", "-14.260057"), ("lon", "-170.649948"), ("z", "13"), ("m", "w")];
    ExampleParamsFromPairs(s, pairs);
    ExamplePairsFlatten(pairs);
  }

  /** The example link gives the point whose coordinates are its `lon` and `lat` texts, parsed. */
  lemma ExamplePoint(env: Env, s: string)
    requires s == "/#lang=en&" + "lat=-14.260057&lon=-170.649948&z=13&m=w"
    requires env.parseFloat("-14.260057").Some? && env.parseFloat("-170.649948").Some?
    ensures GetPointFromMapUrl(env, Some(s)) ==
      Some(GeoPoint(lon := env.parseFloat("-170.649948").value, lat := env.parseFloat("-14.260057").value))
  {
    ExampleParams(s);
  }

  /** The pieces of a link with only `lat`: the prefix before "lat" and the query from it. */
  lemma MissingLonPieces(s: string, head: string, q: string)
    requires s == "/#lang=en&lat=-14.260057"
    requires head == s[..10] && q == s[10..]
    ensures q == "lat=-14.260057" && s == head + q
    ensures |q| >= 3 && q[..3] == "lat" && '#' !in q
    ensures forall j :: 0 <= j < |head| ==> !OccursAt(head + q[..2], "lat", j)
  {
    assert s == "/#lang=en&" + "lat=-14.260057";
    assert head == "/#lang=en&" && q == "lat=-14.260057";
    assert q[0] == 'l' && q[1] == 'a' && q[2] == 't';
    assert q[..3] == "lat" && q[..2] == "la" && '#' !in q;
    HeadHasNoLat(head + q[..2]);
  }

  /** The query `lat=-14.260057` reads as one pair, so `parse_qs` has no `lon`. */
  lemma MissingLonQuery(q: string, pairs: seq<(string, string)>)
    requires q == "lat=-14.260057" && pairs == [("lat", "-14.260057")]
    ensures ParseQsl(q) == pairs
    ensures "lon" !in ParseQs(pairs)
  {
    assert QueryString(pairs) == "lat" + "=" + "-14.260057" == q;
    ParseQslOfQueryString(pairs);
    ValuesForAbsentKey(pairs, "lon");
    ParseQsCollectsValues(pairs, "lon");
  }

  /** A link whose only parameter after the first "lat" is `lat` has no `lon`. */
  lemma MissingLonParams(s: string)
    requires s == "/#lang=en&lat=-14.260057"
    ensures "lon" !in GetParamsFromMapUrl(s)
  {
    MissingLonPieces(s, s[..10], s[10..]);
    ParamsAfterPrefix(s[..10], s[10..]);
    MissingLonQuery(s[10..], [("lat", "-14.260057")]);
  }

  /** A map link without `lon` gives no point, whatever the number parser does. */
  lemma ExampleMissingLon(env: Env, s: string)
    requires s == "/#lang=en&lat=-14.260057"
    ensures GetPointFromMapUrl(env, Some(s)) == None
  {
    MissingLonParams(s);
  }

  /** Python's `parse_qsl("lat=1&&lon=2")`: the blank field is skipped and `lon` is still read. */
  lemma BlankFieldExample(qs: string, a: string, b: string)
    requires a == "lat" + "=" + "1" && b == "lon" + "=" + "2" && qs == a + "&&" + b
    ensures ParseQsl(qs) == [("lat", "1"), ("lon", "2")]
  {
    assert '&' !in a && '&' !in b;
    BlankFieldInQuery(a, b);
    OnePair("lat", "1", a);
    OnePair("lon", "2", b);
  }

  /** A `key=value` field on its own reads as that one pair. */
  lemma OnePair(key: string, value: string, f: string)
    requires '=' !in key && value != "" && f == key + "=" + value
    ensures ParseFields([f]) == [(key, value)]
  {
    ParseFieldOfPair(key, value);
    ParseFieldsSingle(f);
  }
}

=== FILE: optional.dfy ===
/** Failure-carrying values used across the model. */
module Optional {

  /** A value that may be absent, like Python's `Optional[...]` / `None`. */
  datatype Option<T> = None | Some(value: T)

  /** The outcome of an operation that can raise. */
  datatype Result<T, E> = Success(value: T) | Failure(error: E)
}

=== FILE: pages.dfy ===
/**
 * The crawler's records (`GeoPoint`, `GeoLocation`) and the abstract view of a
 * downloaded page, together with the collaborators the core calls but does
 * not define.
 */
module Pages {
  import opened Optional
  import opened Utils

  /** An `<a>` element: its visible text and its `href` attribute, when present. */
  datatype Anchor = Anchor(text: string, href: Option<string>)

  /**
   * What the core reads from a parsed page: every anchor in document order,
   * the anchors of each `li` element, the anchors matched by `.linkslist a`,
   * and the text of the element with id `place-description`, when there is one.
   * On a real page `anchors` also holds every anchor of `listItems` and
   * `linksList`, in document order; the record does not enforce this, so the
   * model's properties hold for such pages and for any other record alike.
   */
  datatype Page = Page(
    anchors: seq<Anchor>,
    listItems: seq<seq<Anchor>>,
    linksList: seq<Anchor>,
    description: Option<string>)

  /** A coordinate; the model never computes with one. */
  type Coord = real

  /** `GeoPoint(lon=..., lat=...)`. */
  datatype GeoPoint = GeoPoint(lon: Coord, lat: Coord)

  /** `GeoLocation`: the detail-page URL, its points, and its metadata. */
  datatype GeoLocation = GeoLocation(url: Url, points: seq<GeoPoint>, data: map<string, string>)

  /**
   * The collaborators:
   * - `fetch`: download and parse a page; `None` when either step fails;
   * - `join`: `urljoin(base, href)` for a non-empty `href`;
   * - `parseFloat`: `float(text)`; `None` when it raises;
   * - `sameLocation`: the `==` used by `geo_location not in self.geo_locations`
   *   (field-wise dataclass equality, comparing points by identity);
   * - `normalize`: `normalize_caseless`.
   */
  datatype Env = Env(
    fetch: Url -> Option<Page>,
    join: (Url, string) -> Url,
    parseFloat: string -> Option<Coord>,
    sameLocation: (GeoLocation, GeoLocation) -> bool,
    normalize: string -> string)

  /** `urljoin(base, href)`: a missing or empty `href` gives back the base itself. */
  function ResolveHref(env: Env, base: Url, href: Option<string>): (r: Url)
    ensures href.None? || href.value == "" ==> r == base
    ensures href.Some? && href.value != "" ==> r == env.join(base, href.value)
  {
    if href.None? || href.value == "" then base else env.join(base, href.value)
  }

  /** `data |= info`: keys of `info` win, every other key of `data` is kept. */
  function Merge(data: map<string, string>, info: map<string, string>): (r: map<string, string>)
    ensures forall k :: k in r <==> k in data || k in info
    ensures forall k :: k in info ==> r[k] == info[k]
    ensures forall k :: k in data && k !in info ==> r[k] == data[k]
  {
    data + info
  }
}

=== FILE: scraper.dfy ===
/**
 * `WikimapiaCrawler.run` with one worker: find the named location on the
 * start page, crawl everything below it, enrich the stored locations, and
 * build the GeoJSON collection.
 */
module Scraper {
  import opened Optional
  import opened Utils
  import opened Pages
  import opened Crawler
  import opened Enrich
  import opened GeoJson

  /**
   * Why a run ends without a collection:
   * - `NotFound`: no `.linkslist a` anchor matched (`NotFoundError`);
   * - `PageUnavailable`: the start page could not be downloaded;
   * - `MissingHref`: a scanned anchor had no `href`, so indexing it raised;
   * - `OutOfFuel`: the discovery loop did not drain within its step bound.
   */
  datatype ScrapeError = NotFound(name: string) | PageUnavailable(url: Url) | MissingHref | OutOfFuel

  /** An anchor `find_location_in_page` accepts: a non-empty `href` and the searched name. */
  predicate Matches(env: Env, a: Anchor, searchName: string): (r: bool)
    ensures r ==> a.href.Some? && a.href.value != ""
    ensures a.href.Some? && a.href.value != "" ==> (r <==> CaselessEqual(env.normalize, a.text, searchName))
  {
    a.href.Some? && a.href.value != "" && CaselessEqual(env.normalize, a.text, searchName)
  }

  /**
   * The scan of `find_location_in_page` from index `k`: the first anchor that
   * is missing its `href` raises, the first that matches wins, and its `href`
   * is joined against the start URL.
   */
  function FindInAnchorsFrom(env: Env, startUrl: Url, anchors: seq<Anchor>, searchName: string, k: nat): (r: Result<(string, Url), ScrapeError>)
    requires k <= |anchors|
    requires forall j :: 0 <= j < k ==> anchors[j].href.Some? && !Matches(env, anchors[j], searchName)
    ensures r.Success? ==>
      (exists i :: k <= i < |anchors| && Matches(env, anchors[i], searchName) &&
        r.value == (anchors[i].text, env.join(startUrl, anchors[i].href.value)) &&
        forall j :: 0 <= j < i ==> anchors[j].href.Some? && !Matches(env, anchors[j], searchName))
    ensures r == Failure(MissingHref) ==>
      (exists i :: k <= i < |anchors| && anchors[i].href.None? &&
        forall j :: 0 <= j < i ==> !Matches(env, anchors[j], searchName))
    ensures r.Failure? ==> r.error == MissingHref || r.error == NotFound(searchName)
    ensures r == Failure(NotFound(searchName)) <==>
      forall j :: 0 <= j < |anchors| ==> anchors[j].href.Some? && !Matches(env, anchors[j], searchName)
    ensures forall i ::
      (k <= i < |anchors| && Matches(env, anchors[i], searchName) &&
       forall j :: k <= j < i ==> anchors[j].href.Some? && !Matches(env, anchors[j], searchName)) ==>
      r == Success((anchors[i].text, env.join(startUrl, anchors[i].href.value)))
    ensures forall i ::
      (k <= i < |anchors| && anchors[i].href.None? &&
       forall j :: k <= j < i ==> anchors[j].href.Some? && !Matches(env, anchors[j], searchName)) ==>
      r == Failure(MissingHref)
    decreases |anchors| - k
  {
    if k == |anchors| then Failure(NotFound(searchName))
    else
      var a := anchors[k];
      if a.href.None? then Failure(MissingHref)
      else if Matches(env, a, searchName) then Success((a.text, env.join(startUrl, a.href.value)))
      else FindInAnchorsFrom(env, startUrl, anchors, searchName, k + 1)
  }

  /**
   * `find_location_in_page(url, search_name)`: download `url`, scan its
   * `.linkslist a` anchors, and join the match against the start URL. The
   * first matching anchor wins, unless an anchor without an `href` comes
   * before it.
   */
  function FindLocationInPage(env: Env, startUrl: Url, url: Url, searchName: string): (r: Result<(string, Url), ScrapeError>)
    ensures env.fetch(url).None? ==> r == Failure(PageUnavailable(url))
    ensures r.Success? ==>
      (env.fetch(url).Some? &&
       exists i :: 0 <= i < |env.fetch(url).value.linksList| &&
         var a := env.fetch(url).value.linksList[i];
         Matches(env, a, searchName) && r.value == (a.text, env.join(startUrl, a.href.value)))
    ensures env.fetch(url).Some? ==>
      (r == Failure(NotFound(searchName)) <==>
        forall a :: a in env.fetch(url).value.linksList ==> a.href.Some? && !Matches(env, a, searchName))
    ensures env.fetch(url).Some? ==>
      var l := env.fetch(url).value.linksList;
      forall i ::
        (0 <= i < |l| && Matches(env, l[i], searchName) &&
         forall j :: 0 <= j < i ==> l[j].href.Some? && !Matches(env, l[j], searchName)) ==>
        r == Success((l[i].text, env.join(startUrl, l[i].href.value)))
    ensures env.fetch(url).Some? ==>
      var l := env.fetch(url).value.linksList;
      forall i ::
        (0 <= i < |l| && l[i].href.None? &&
         forall j :: 0 <= j < i ==> l[j].href.Some? && !Matches(env, l[j], searchName)) ==>
        r == Failure(MissingHref)
  {
    match env.fetch(url)
    case None => Failure(PageUnavailable(url))
    case Some(page) => FindInAnchorsFrom(env, startUrl, page.linksList, searchName, 0)
  }

  /**
   * `run(location_name)` with one worker and a bound of `fuel` crawl steps.
   * A successful run drained the queue, visited the found location's URL,
   * left every visited page's links visited, and returns one feature per
   * stored location, each with a `name` property. Whether or not it drains,
   * the crawl never leaves the subtree under the found URL.
   */
  method Run(env: Env, startUrl: Url, locationName: string, fuel: nat)
    returns (r: Result<FeatureCollection, ScrapeError>, c: CrawlState)
    ensures FindLocationInPage(env, startUrl, startUrl, locationName).Failure? ==>
      r == Failure(FindLocationInPage(env, startUrl, startUrl, locationName).error)
    ensures r.Success? ==> FindLocationInPage(env, startUrl, startUrl, locationName).Success?
    ensures r.Success? ==> FindLocationInPage(env, startUrl, startUrl, locationName).value.1 in c.visited
    ensures r.Success? ==> c.pending.items == [] && Inv(env, c)
    ensures r.Success? ==> r.value == BuildGeoJson(EnrichAll(env, c.locations))
    ensures r.Success? ==> |r.value.features| == |c.locations|
    ensures r.Success? ==> forall k :: 0 <= k < |r.value.features| ==>
      |c.locations[k].points| > 0 &&
      r.value.features[k].geometry.coordinates == [c.locations[k].points[0].lon, c.locations[k].points[0].lat] &&
      r.value.features[k].properties == LocationHandler(env, c.locations[k]).data &&
      (forall key :: key in c.locations[k].data ==> key in r.value.features[k].properties)
    ensures r.Success? ==> forall k :: 0 <= k < |r.value.features| ==>
      "name" in r.value.features[k].properties && |r.value.features[k].geometry.coordinates| == 2
    ensures r.Failure? && r.error == OutOfFuel ==> c.pending.items != []
    ensures FindLocationInPage(env, startUrl, startUrl, locationName).Success? ==>
      var seed := FindLocationInPage(env, startUrl, startUrl, locationName).value.1;
      (exists n: nat :: n <= fuel && c == Iterate(env, AddUrlToVisit(InitialState(), seed), n) &&
        (c.pending.items == [] || n == fuel)) &&
      (r.Success? <==> c.pending.items == [])
    ensures r.Success? ==> Covered(env, c) && StoredSince(env, 0, c)
    ensures FindLocationInPage(env, startUrl, startUrl, locationName).Success? ==>
      Under(c, FindLocationInPage(env, startUrl, startUrl, locationName).value.1)
    ensures r.Success? ==>
      c == Iterate(env, AddUrlToVisit(InitialState(), FindLocationInPage(env, startUrl, startUrl, locationName).value.1), fuel)
  {
    c := InitialState();
    var found := FindLocationInPage(env, startUrl, startUrl, locationName);
    if found.Failure? {
      r := Failure(found.error);
      return;
    }
    var seed := found.value.1;
    var c0 := AddUrlToVisit(c, seed);
    assert Inv(env, c0);
    var drained, steps;
    c, drained, steps := Crawl(env, c0, fuel);
    SeedIsUnder(seed);
    IterateUnder(env, c0, seed, steps);
    if drained {
      IterateDrainedStays(env, c0, steps, fuel);
    }
    if !drained {
      r := Failure(OutOfFuel);
      return;
    }
    assert !c.pending.Contains(seed);
    var enriched := EnrichAll(env, c.locations);
    BuildFeaturesOfLocated(enriched);
    r := Success(BuildGeoJson(enriched));
    forall k | 0 <= k < |r.value.features| ensures "name" in r.value.features[k].properties {
      assert Some(r.value.features[k]) == FeatureOf(enriched[k]);
    }
  }
}

=== FILE: set_queue.dfy ===
/**
 * `SetAsyncioQueue`: a FIFO of URLs paired with the set of URLs it holds, so
 * that "is this URL pending?" is a set lookup.
 */
module SetQueues {
  import opened Optional
  import opened Utils

  datatype SetQueue = SetQueue(items: seq<Url>, members: set<Url>) {

    /** `item in queue` (`__contains__`): consults the membership set only. */
    predicate Contains(u: Url) {
      u in members
    }

    /** `put`: records membership and appends at the tail. */
    function Put(u: Url): (r: SetQueue)
      ensures r.Contains(u)
      ensures r.items == items + [u]
      ensures forall v :: r.Contains(v) <==> Contains(v) || v == u
    {
      SetQueue(items + [u], members + {u})
    }

    /**
     * `get` on a non-empty queue (on an empty one it blocks forever): takes the
     * head and removes it from the membership set, which raises `KeyError`
     * (here `None`) when the head is not a member.
     */
    function Get(): (r: Option<(Url, SetQueue)>)
      requires |items| > 0
      ensures r.Some? <==> items[0] in members
      ensures r.Some? ==> r.value.0 == items[0] && r.value.1.items == items[1..]
      ensures r.Some? ==> forall v :: r.value.1.Contains(v) <==> Contains(v) && v != items[0]
    {
      var head := items[0];
      if head in members then Some((head, SetQueue(items[1..], members - {head}))) else None
    }

    /** The queue holds no URL twice and its set is exactly the set of queued URLs. */
    ghost predicate Valid() {
      (forall i, j :: 0 <= i < j < |items| ==> items[i] != items[j]) &&
      (forall u :: u in members <==> u in items)
    }
  }

  /** The empty queue the crawler starts with. */
  function EmptyQueue(): (q: SetQueue)
    ensures q.Valid() && q.items == []
    ensures forall u :: !q.Contains(u)
  {
    SetQueue([], {})
  }

  /** A put of a URL that is not pending keeps the queue valid. */
  lemma PutKeepsValid(q: SetQueue, u: Url)
    requires !q.Contains(u)
    ensures q.Valid() ==> q.Put(u).Valid()
  {
    var r := q.Put(u);
    if !q.Valid() {
      return;
    }
    forall i, j | 0 <= i < j < |r.items| ensures r.items[i] != r.items[j] {
      if j == |q.items| {
        assert q.items[i] in q.items;
      }
    }
  }

  /** On a valid queue `get` never raises, and the rest of the queue stays valid. */
  lemma GetKeepsValid(q: SetQueue)
    requires q.Valid() && |q.items| > 0
    ensures q.Get().Some?
    ensures q.Get().value.1.Valid()
    ensures !q.Get().value.1.Contains(q.items[0])
  {
    assert q.items[0] in q.items;
    var r := q.Get().value.1;
    forall v ensures v in r.members <==> v in r.items {
      if v in r.items {
        var k :| 0 <= k < |r.items| && r.items[k] == v;
        assert q.items[k + 1] == v;
      }
      if v in q.items && v != q.items[0] {
        var k :| 0 <= k < |q.items| && q.items[k] == v;
        assert k > 0;
        assert r.items[k - 1] == v;
      }
    }
  }

  /**
   * Putting the same URL twice without the membership guard makes the second
   * `get` raise: the first `get` already removed it from the set.
   */
  lemma UnguardedDoublePutBreaksGet(u: Url)
    ensures var q := EmptyQueue().Put(u).Put(u);
            q.Get().Some? && q.Get().value.1.Get().None?
  {
  }
}

=== FILE: strings.dfy ===
/** The Python string operations the crawler relies on, over `seq<char>`. */
module Strings {
  import opened Optional

  /** `pat` occurs in `s` starting at index `i`. */
  predicate OccursAt(s: string, pat: string, i: int) {
    0 <= i && i + |pat| <= |s| && s[i..i + |pat|] == pat
  }

  /** The first occurrence of `pat` in `s` at or after `k`, given none before `k`. */
  function FindFrom(s: string, pat: string, k: nat): (r: Option<nat>)
    requires forall j :: 0 <= j < k ==> !OccursAt(s, pat, j)
    ensures r.Some? ==> OccursAt(s, pat, r.value)
    ensures r.Some? ==> forall j :: 0 <= j < r.value ==> !OccursAt(s, pat, j)
    ensures r.None? ==> forall j :: !OccursAt(s, pat, j)
    decreases |s| - k
  {
    if k + |pat| > |s| then None
    else if s[k..k + |pat|] == pat then Some(k)
    else FindFrom(s, pat, k + 1)
  }

  /** The index of the first occurrence of `pat` in `s`, as `str.find` reports it. */
  function Find(s: string, pat: string): (r: Option<nat>)
    ensures r.Some? ==> OccursAt(s, pat, r.value)
    ensures r.Some? ==> forall j :: 0 <= j < r.value ==> !OccursAt(s, pat, j)
    ensures r.None? ==> forall j :: !OccursAt(s, pat, j)
  {
    FindFrom(s, pat, 0)
  }

  /** The first occurrence is determined by where `pat` occurs. */
  lemma FindIsFirstOccurrence(s: string, pat: string, i: nat)
    requires OccursAt(s, pat, i)
    requires forall j :: 0 <= j < i ==> !OccursAt(s, pat, j)
    ensures Find(s, pat) == Some(i)
  {
  }

  /** The index of the first `c` in `s`, if any. */
  function IndexOf(s: string, c: char): (r: Option<nat>)
    ensures r.Some? ==> r.value < |s| && s[r.value] == c && c !in s[..r.value]
    ensures r.None? <==> c !in s
  {
    var r := Find(s, [c]);
    if r.Some? then
      assert s[r.value..r.value + 1] == [c];
      assert c !in s[..r.value] by {
        forall j | 0 <= j < r.value ensures s[j] != c {
          assert !OccursAt(s, [c], j);
          assert s[j..j + 1] == [s[j]];
        }
      }
      r
    else
      assert c !in s by {
        forall j | 0 <= j < |s| ensures s[j] != c {
          assert !OccursAt(s, [c], j);
          assert s[j..j + 1] == [s[j]];
        }
      }
      r
  }

  /** Python's `s.startswith(prefix)`, compared character by character. */
  function StartsWith(s: string, prefix: string): (r: bool)
    ensures r <==> prefix <= s
  {
    if |prefix| == 0 then true
    else if |s| == 0 then false
    else
      assert prefix <= s <==> s[0] == prefix[0] && prefix[1..] <= s[1..] by {
        if s[0] == prefix[0] && prefix[1..] <= s[1..] {
          assert prefix == [prefix[0]] + prefix[1..];
          assert s[..|prefix|] == [s[0]] + s[1..][..|prefix| - 1];
        }
      }
      s[0] == prefix[0] && StartsWith(s[1..], prefix[1..])
  }

  /** Joins non-empty `parts` with `sep` between them, like `sep.join(parts)`. */
  function Join(parts: seq<string>, sep: char): string
    requires |parts| >= 1
  {
    if |parts| == 1 then parts[0] else parts[0] + [sep] + Join(parts[1..], sep)
  }

  /** Python's `s.split(sep)`: the maximal `sep`-free pieces, in order. */
  function Split(s: string, sep: char): (r: seq<string>)
    ensures |r| >= 1
    ensures forall i :: 0 <= i < |r| ==> sep !in r[i]
    ensures Join(r, sep) == s
  {
    if |s| == 0 then [""]
    else
      var rest := Split(s[1..], sep);
      if s[0] == sep then
        assert s == [] + [sep] + s[1..];
        [""] + rest
      else
        var r := [[s[0]] + rest[0]] + rest[1..];
        assert r[1..] == rest[1..];
        assert s == [s[0]] + s[1..];
        r
  }

  /** Splitting text with a leading `sep`-free piece peels off that piece. */
  lemma {:induction false} SplitAfterPiece(p: string, sep: char, rest: string)
    requires sep !in p
    ensures Split(p + [sep] + rest, sep) == [p] + Split(rest, sep)
    decreases |p|
  {
    if |p| == 0 {
      assert p + [sep] + rest == [sep] + rest;
    } else {
      var s := p + [sep] + rest;
      assert s[0] == p[0];
      assert s[1..] == p[1..] + [sep] + rest;
      SplitAfterPiece(p[1..], sep, rest);
      assert [p[0]] + p[1..] == p;
    }
  }

  /** Splitting a text with no `sep` gives it back whole. */
  lemma {:induction false} SplitWithoutSep(p: string, sep: char)
    requires sep !in p
    ensures Split(p, sep) == [p]
    decreases |p|
  {
    if |p| > 0 {
      SplitWithoutSep(p[1..], sep);
      assert [p[0]] + p[1..] == p;
    }
  }

  /** `split` undoes `join` when no part contains the separator. */
  lemma {:induction false} SplitJoin(parts: seq<string>, sep: char)
    requires |parts| >= 1
    requires forall i :: 0 <= i < |parts| ==> sep !in parts[i]
    ensures Split(Join(parts, sep), sep) == parts
    decreases |parts|
  {
    if |parts| == 1 {
      SplitWithoutSep(parts[0], sep);
    } else {
      SplitJoin(parts[1..], sep);
      SplitAfterPiece(parts[0], sep, Join(parts[1..], sep));
      assert [parts[0]] + parts[1..] == parts;
    }
  }
}

=== FILE: utils.dfy ===
/** URL scoping and caseless comparison (src/utils.py). */
module Utils {
  import opened Strings

  /**
   * A URL as `urlparse` splits it. Only the network location and the path are
   * ever inspected; `extra` stands for the scheme, query and fragment, which
   * still distinguish one URL from another.
   */
  datatype Url = Url(netloc: string, path: string, extra: string)

  /** `is_base_url(url, baseurl)`: `url` lies on the same host at or below `baseurl`'s path. */
  function IsBaseUrl(url: Url, base: Url): (r: bool)
    ensures r <==> url.netloc == base.netloc && base.path <= url.path
  {
    url.netloc == base.netloc && StartsWith(url.path, base.path)
  }

  /** Every URL is under itself. */
  lemma IsBaseUrlReflexive(u: Url)
    ensures IsBaseUrl(u, u)
  {
  }

  /** A URL on another host is never under the base. */
  lemma IsBaseUrlOtherHost(u: Url, base: Url)
    requires u.netloc != base.netloc
    ensures !IsBaseUrl(u, base)
  {
  }

  /**
   * Only deeper paths are accepted: a shallower path, or one that leaves the
   * base path at some character, is rejected.
   */
  lemma IsBaseUrlOnlyDeeper(u: Url, base: Url)
    ensures IsBaseUrl(u, base) ==> |base.path| <= |u.path| && u.path[..|base.path|] == base.path
    ensures |u.path| < |base.path| ==> !IsBaseUrl(u, base)
    ensures forall i :: 0 <= i < |base.path| && i < |u.path| && u.path[i] != base.path[i] ==> !IsBaseUrl(u, base)
  {
  }

  /** Being under a base is transitive. */
  lemma IsBaseUrlTransitive(a: Url, b: Url, c: Url)
    requires IsBaseUrl(a, b) && IsBaseUrl(b, c)
    ensures IsBaseUrl(a, c)
  {
    assert a.path[..|c.path|] == b.path[..|c.path|];
  }

  /**
   * The comparison is on raw text, not on path segments: a sibling whose name
   * merely extends the base's last segment is accepted.
   */
  lemma IsBaseUrlComparesText(host: string)
    ensures IsBaseUrl(Url(host, "/country/AB", ""), Url(host, "/country/A", ""))
    ensures !IsBaseUrl(Url(host, "/country/B", ""), Url(host, "/country/A", ""))
    ensures !IsBaseUrl(Url(host, "/country/", ""), Url(host, "/country/A", ""))
  {
    assert "/country/B"[9] != "/country/A"[9];
  }

  /** `caseless_equal`: equality of the normalised forms under `normalize_caseless`. */
  function CaselessEqual(normalize: string -> string, left: string, right: string): (r: bool)
    ensures left == right ==> r
    ensures r <==> normalize(left) == normalize(right)
  {
    normalize(left) == normalize(right)
  }

  /** Caseless equality is an equivalence relation, whatever the normaliser. */
  lemma CaselessEqualIsEquivalence(normalize: string -> string)
    ensures forall s :: CaselessEqual(normalize, s, s)
    ensures forall a, b :: CaselessEqual(normalize, a, b) ==> CaselessEqual(normalize, b, a)
    ensures forall a, b, c :: CaselessEqual(normalize, a, b) && CaselessEqual(normalize, b, c) ==> CaselessEqual(normalize, a, c)
  {
  }

  /** Lower-cases the ASCII letters of `s` and leaves every other character alone. */
  function AsciiLower(s: string): (r: string)
    ensures |r| == |s|
    ensures forall i :: 0 <= i < |s| && !('A' <= s[i] <= 'Z') ==> r[i] == s[i]
    ensures forall i :: 0 <= i < |s| && 'A' <= s[i] <= 'Z' ==> r[i] as int == s[i] as int + 32
  {
    if |s| == 0 then ""
    else
      var c := if 'A' <= s[0] <= 'Z' then (s[0] as int + 32) as char else s[0];
      [c] + AsciiLower(s[1..])
  }

  /**
   * Full case folding followed by NFKD agrees on a text and its ASCII-lowered
   * form; this is all the model assumes of `normalize_caseless` below.
   */
  ghost predicate FoldsAsciiCase(normalize: string -> string) {
    forall s :: normalize(AsciiLower(s)) == normalize(s)
  }

  /** The three spellings of the example name share one ASCII-lowered form. */
  lemma AsciiLowerArad()
    ensures AsciiLower("Arad") == "arad"
    ensures AsciiLower("ARAD") == "arad"
    ensures AsciiLower("arad") == "arad"
  {
    var a, b, c := AsciiLower("Arad"), AsciiLower("ARAD"), AsciiLower("arad");
    assert a[0] == 'a' && a[1] == 'r' && a[2] == 'a' && a[3] == 'd';
    assert b[0] == 'a' && b[1] == 'r' && b[2] == 'a' && b[3] == 'd';
    assert c[0] == 'a' && c[1] == 'r' && c[2] == 'a' && c[3] == 'd';
  }

  /** A search for "Arad" matches listing entries "ARAD" and "arad". */
  lemma CaselessEqualIgnoresAsciiCase(normalize: string -> string)
    requires FoldsAsciiCase(normalize)
    ensures CaselessEqual(normalize, "Arad", "ARAD")
    ensures CaselessEqual(normalize, "Arad", "arad")
  {
    AsciiLowerArad();
    assert normalize(AsciiLower("Arad")) == normalize("Arad");
    assert normalize(AsciiLower("ARAD")) == normalize("ARAD");
    assert normalize(AsciiLower("arad")) == normalize("arad");
  }
}
